=== FILE: README.md ===
# Sports events: the event/venue orchestrator in Dafny

This project models the server side of a small multi-user sports-events application. Each user owns events. Each event has one or more venues. The application keeps them in two tables, `events` and `venues`, in a hosted relational store. Five server actions read and write those tables:

- `getEvents` lists the caller's events. It can filter them by a name search and by sport, sorts them by date, and attaches each event's venues.
- `getEventById` reads one event, selected by id and owner together.
- `createEvent` validates and normalises a form, inserts the event, then inserts its venues. If the venue insert fails, it deletes the event again.
- `updateEvent` validates the form and checks ownership. It then updates the event's fields, deletes all of its venues and inserts the submitted ones.
- `deleteEvent` checks ownership, then deletes the venues and then the event.

Every action runs inside `safeAction`. That wrapper turns a returned value or a thrown error into the tagged result `{ success, data }` or `{ success, error }`.

Each action is modelled as a pure function:

```
store × current user (None when signed out) × input × storage faults → (result, store)
```

The two reads, `getEvents` and `getEventById`, change no table, so they return the result alone.

The store holds both tables in insertion order and the next id it will hand out (`Storage.Store`). `Storage.Valid` is the invariant that row ids are unique and every id is below the next id. Each storage call carries a `Call` flag: it either succeeds or fails with a message. That flag is how the partial-failure paths are stated exactly.

Modules follow the source:

- `ActionHelpers` is `src/lib/action-helpers.ts`.
- `Types` is `src/types/index.ts`.
- `Storage` holds the table operations the actions issue.
- `Events` holds the five actions of `src/actions/events.ts` with their validation, normalisation and row-to-event mapping.
- `EventProperties` holds the lemmas that relate several calls.
- `Text`, `Like`, `Collections` and `Sorting` are the string, pattern, filtering and ordering helpers those modules rely on.
- `Wrappers` defines `Option`.

What the actions check, and what they do not:

- `sport_type` is only checked to be non-empty. `Events.FormIsComplete` accepts any non-empty string, not just the 16 sports.
- Venue names and capacities are not checked at all. A capacity is stored as `capacity || null`, so 0 is stored as null.
- The name search sends the raw search text inside an `ILIKE` pattern. Its pattern characters keep their meaning; see "Findings".

## Model

| member | source | states |
|---|---|---|
| ActionHelpers.SafeAction | src/lib/action-helpers.ts:7-19 | The result is a success exactly when the body returned. A returned value is passed through unchanged. A thrown `Error` becomes a failure with its message. Any other thrown value becomes a failure with "An unexpected error occurred". No completion escapes. |
| ActionHelpers.WrapRethrowIdentity | src/lib/action-helpers.ts:3-5 | Re-raising a result's failure as an `Error` and wrapping it again gives back the same result. |
| ActionHelpers.RethrowWrapIdentity | src/lib/action-helpers.ts:10-19 | A completion can be recovered from its wrapped result exactly when it is not a throw of a non-`Error` value. |
| Types.SportTypesIsTheUnion | src/types/index.ts:1-36 | `SPORT_TYPES` has 16 entries, no duplicates, and every member of the `SportType` union, so the list and the union are the same set. |
| Types.SportNamesDistinct | src/types/index.ts:1-17 | Two sports have the same name only if they are the same sport. No sport is named "" or "all". |
| Text.Trim | src/actions/events.ts:139 | The result is the input minus its leading and trailing JavaScript whitespace, with a non-blank character at each end. |
| Text.TrimIsUnique | src/actions/events.ts:159 | A string has only one trimmed form, and `Trim` computes it. |
| Text.TrimEmptyIffBlank | src/actions/events.ts:139-141 | `name.trim()` is falsy exactly when the name is all whitespace. |
| Text.TrimIdempotent | src/actions/events.ts:159 | Trimming a trimmed string changes nothing. |
| Like.StarsToPercent | src/actions/events.ts:35 | PostgREST's reading of a filter pattern keeps its length and leaves no `*` in it. A pattern without `*` is read unchanged. |
| Like.ILikeContains | src/actions/events.ts:34-36 | The name filter as sent, `name ILIKE '%search%'` with `*` read as `%`. When the search holds none of `%`, `_`, `\` and `*`, it holds exactly when the name contains the search, ignoring case. |
| Like.PlainSearchPattern | src/actions/events.ts:35 | When the search holds no pattern character, the case-folded pattern the match compares is the lower-cased search between two `%`. |
| Like.PercentWrappedIsSubstring | src/actions/events.ts:35 | A text with no pattern characters between two `%` matches exactly the strings that contain it. |
| Like.UnderscoreSearchMatchesOtherNames | src/actions/events.ts:35 | The search `_` selects "City Cup", which does not contain `_`. |
| Like.WildcardSearchesMatchEveryName | src/actions/events.ts:35 | The searches `%` and `*` each select every name; PostgREST reads `*` as `%`. |
| Collections.FilterKeepsDistinct | src/actions/events.ts:320-324 | Removing rows from a table with unique ids leaves the ids unique. |
| Collections.FilterAgrees | src/actions/events.ts:27-41 | Two row tests that agree on every row of a table select the same rows. |
| Sorting.InsertByDate | src/actions/events.ts:31 | Inserting into a date-sorted list keeps it sorted, and the result holds the old rows plus the new one. |
| Sorting.SortByDate | src/actions/events.ts:31 | `order("date_time", ascending)`: the result is sorted by date and is a permutation of the input. |
| Storage.OwnedRows | src/actions/events.ts:89-94 | The id-and-owner select holds exactly the table's rows with that id and that owner. |
| Storage.VenuesOf | src/actions/events.ts:105-108 | The venue select holds exactly the table's venue rows that reference the event. |
| Storage.OwnedRowsOfValid | src/actions/events.ts:89-94 | In a valid store, an id-and-owner select finds at most one row. It finds exactly one when the caller owns an event with that id. |
| Storage.OneRowPerId | src/types/index.ts:70-79 | Under `Valid` (ids unique, the model's reading of the generated `id` column), two event rows with the same id are the same row. |
| Storage.SelectOwnedEvent | src/actions/events.ts:89-98 | `.single()` on the id-and-owner select returns data exactly when the call succeeds and the caller owns the id. A failed call reports its own error. Otherwise the error is the client's no-rows message. |
| Storage.InsertEventRow | src/actions/events.ts:156-166 | A successful insert appends the row under the next id and returns it. A failed insert changes nothing. Validity is kept. |
| Storage.InsertVenueRows | src/actions/events.ts:180-183 | A batch insert appends every venue row under consecutive fresh ids, or on failure appends none. The events table is untouched. |
| Storage.DeleteEventRows | src/actions/events.ts:316-324 | The delete succeeds exactly when the call succeeds and no venue references a row it would remove; otherwise it reports the call's error or the foreign-key error and changes nothing. A successful delete leaves no matching row, keeps every row with another id, and leaves no venue referencing a removed row. It adds no row, leaves the venues untouched and keeps validity. |
| Storage.VenuesOfAfterDelete | src/actions/events.ts:317 | Deleting one event's venues leaves another event's venue selection as it was. |
| Storage.OtherVenuesAfterDelete | src/actions/events.ts:317 | Deleting one event's venues leaves the venue selection of every other event as it was. |
| Storage.DeleteVenueRows | src/actions/events.ts:317 | A successful delete leaves the event no venues. Every other event's venues are exactly as before, whether or not the delete succeeds. A failed delete changes nothing. |
| Storage.ApplyWhereOwned | src/actions/events.ts:245-255 | The update touches only the caller's row with that id, and it never changes a row's id or owner. |
| Storage.ApplyWhereOwnedValid | src/actions/events.ts:247-253 | Setting the updatable columns keeps ids unique. |
| Storage.ApplyWhereOwnedKeepsOwned | src/actions/events.ts:254-257 | The owned row is still there after the update, so the update's `.single()` finds it. |
| Storage.OwnedRowsTakeChanges | src/actions/events.ts:245-255 | After the update, every row the caller's id selects carries the submitted name, sport, date and description. |
| Storage.UpdateOwnedEventRow | src/actions/events.ts:245-261 | A successful update changes only the owned row. It returns that row exactly when the caller owns the id, and the returned row carries the submitted columns. A failed update changes nothing. Venues are untouched. |
| Events.ValidationError | src/actions/events.ts:139-153 | There is no validation error exactly when the form is complete. Otherwise the error is one of the four required-field messages. |
| Events.TrimOrNull | src/actions/events.ts:162 | `description?.trim() \|\| null` is null exactly when the text is missing or blank. Otherwise it is the trimmed, non-empty text. |
| Events.CapacityOrNull | src/actions/events.ts:177 | `capacity \|\| null`, and the read side's `capacity \|\| undefined`, is absent exactly when the capacity is missing or 0. Otherwise the capacity is kept. |
| Events.NormalizeVenue | src/actions/events.ts:173-178 | A venue is written with its trimmed name. The address is null exactly when it was missing or blank, and otherwise it is the trimmed, non-empty text. The capacity is null exactly when it was missing or 0, and otherwise it is kept. |
| Events.TextOrAbsent | src/actions/events.ts:61 | On the read side, a missing or empty text reads as absent, and any other text is kept. |
| Events.ReadVenue | src/actions/events.ts:63-68 | A venue is read with its id and name. Its address is absent exactly when stored missing or empty, and its capacity absent exactly when stored missing or 0. Any other value is kept. |
| Events.ReadEvent | src/actions/events.ts:59-69 | An event is read with its id, owner, name, sport and date unchanged. Its description is absent exactly when stored missing or empty. Each venue row is read by `ReadVenue`, in order. |
| Events.ReturnedEvent | src/actions/events.ts:193-196 | After a write, the event and its venues are returned as stored, with every modelled column kept. That equals the read form exactly when the description is not empty and no venue has an empty address or a zero capacity. |
| Events.ListedRows | src/actions/events.ts:27-43 | The selected rows are sorted by date and are a permutation of the rows that pass the owner, name and sport filters, for either name comparison. |
| Events.ListedRowsMembers | src/actions/events.ts:27-43 | A row is listed exactly when it is in the table and passes the filters. |
| Events.ListedRowsCount | src/actions/events.ts:27-43 | The query returns as many rows as pass the owner, name and sport filters: ordering by date changes the order, not the count. |
| Events.AttachedListFacts | src/actions/events.ts:49-73 | After venues are attached, each listed event is the caller's and passes both filters, the list is date-sorted, and every qualifying event appears and nothing else does, with one entry per qualifying row. |
| Events.GetEvents | src/actions/events.ts:13-75 | It fails "Not authenticated" without a user and fails with the query's message when the query fails. Otherwise it succeeds with the caller's filtered events, in date order, each with its venues: every qualifying event and no other, one entry per qualifying row. With `ILikePattern` the name filter is the query's pattern match, and with `Substring` it is the intended substring test. |
| Events.GetEventById | src/actions/events.ts:77-122 | It fails "Not authenticated" without a user. It succeeds only with an event the caller owns under that id, read with its venues. In a valid store it succeeds exactly when such an event exists. A failing select reports its own error, and a missing row reports the no-rows error. |
| Events.CreateEvent | src/actions/events.ts:124-198 | Without a user, or with an incomplete form, it fails and writes nothing. It succeeds exactly when the form is complete and both inserts succeed. A failed event insert writes nothing. On success, one row with the trimmed fields, owned by the caller, is appended, plus one normalised venue row per submitted venue under consecutive fresh ids, and the returned venues are those rows. Validity is kept. |
| Events.UpdateWrites | src/actions/events.ts:245-288 | Once ownership is confirmed, a failed update reports its error and writes nothing, and a successful one leaves the events table updated. The writes complete exactly when the caller owns the id and the update and the venue insert succeed. They then return the submitted fields and the normalised venues under fresh ids. Every failure is a thrown `Error`. |
| Events.UpdateEvent | src/actions/events.ts:200-290 | Without a user, with an incomplete form, or when the caller does not own the id (or the ownership read fails), it fails and writes nothing. A failed event update reports its error and writes nothing. It succeeds exactly when the caller owns the id and the ownership read, the update and the venue insert succeed. A success returns the event with that id and owner, the trimmed name, the sport, the date, the trimmed-or-null description and, in order, one normalised venue per submitted venue under fresh ids. |
| Events.DeleteEvent | src/actions/events.ts:292-334 | Without a user, or when the caller does not own the id, it fails and writes nothing. When the caller owns the id and the ownership read succeeds, it reports the event delete's error if that delete fails. Otherwise it reports the foreign-key error when the venue delete failed and the event still has venues, and succeeds in every other case. On success none of the caller's rows with that id remain and no venue references the id. A failure leaves the events table as it was. Events with other ids and other events' venues are never touched, and validity is kept. |
| EventProperties.ValidationOrder | src/actions/events.ts:139-153 | The checks run in order: a blank name, then an empty sport, then a missing date, then an empty venue list. Each message is returned exactly when its check is the first to fail. |
| EventProperties.NormalizeVenueIdempotent | src/actions/events.ts:173-178 | Normalising an already normalised venue changes nothing. |
| EventProperties.NormalizedVenueReadsBack | src/actions/events.ts:114-119 | A venue row written from a form reads back with the trimmed name, trimmed-or-absent address and non-zero capacity: the read mapping loses nothing the write kept. |
| EventProperties.VenuesOfConcat | src/actions/events.ts:105-108 | An event's venues in two concatenated tables are its venues in each, in order. |
| EventProperties.VenuesOfNewRows | src/actions/events.ts:173-183 | A freshly inserted batch holds all venues of its own event and none of any other. |
| EventProperties.NothingReferencesNextId | src/actions/events.ts:156-166 | In a valid store, no event row and no venue row uses the id the next insert will get. |
| EventProperties.ListingsAgreeWithoutWildcards | src/actions/events.ts:34-36 | When the search holds no pattern character, the listing as the query runs it equals the intended substring listing. |
| EventProperties.UnderscoreSearchListsCityCup | src/actions/events.ts:35 | The search `_` lists an event named "City Cup" as the query runs it, while the intended listing is empty. |
| EventProperties.CreateRollsBack | src/actions/events.ts:185-189 | A failed venue insert followed by a successful compensating delete returns the venue error and leaves both tables as they were. |
| EventProperties.CreateRollbackLost | src/actions/events.ts:185-189 | If the compensating delete fails too, the caller still gets the venue error, and the new event stays behind with no venues. |
| EventProperties.CreateSuccessStep | src/actions/events.ts:156-197 | A create whose inserts both succeed appends one event row and one venue row per venue, and returns them. |
| EventProperties.GetOfOnlyOwnedRow | src/actions/events.ts:89-120 | When exactly one owned row has the id, a read returns that row with its venues. |
| EventProperties.CreatedVenuesReadBack | src/actions/events.ts:110-120 | In the model's reading of a returned row, the venues a create returns equal what a later read returns, and carry the normalised form venues. |
| EventProperties.AppendedBatchIsAllVenues | src/actions/events.ts:180-183 | After the batch for a new event is appended, that batch is exactly the event's venues. |
| EventProperties.AppendedRowIsOnlyOne | src/actions/events.ts:156-166 | A row appended under the next id is the only row with that id. |
| EventProperties.CreateThenGet | src/actions/events.ts:124-198 | Round trip: after a successful create, reading the new id gives what the create returned, in the model's reading of a returned row (see "Left out"), with the venues normalised from the form. |
| EventProperties.ForeignEventLooksMissing | src/actions/events.ts:89-98 | Asking for another user's event fails. It gets exactly the answer the same request gets once that event is gone from the table. |
| EventProperties.UpdateReplacesVenues | src/actions/events.ts:264-280 | A fully successful update leaves the event exactly the normalised submitted venues, with no leftovers. Every other event's venues are unchanged. |
| EventProperties.ApplyChangesOwnedRow | src/actions/events.ts:245-257 | With unique ids, the row with the id takes the changes and every other row is unchanged. |
| EventProperties.UpdateIsItsWrites | src/actions/events.ts:233-288 | Once validation and the ownership check pass, an update is exactly its writes. |
| EventProperties.UpdateEventsStep | src/actions/events.ts:233-261 | Once the ownership read and the update succeed, the events table is the updated one. |
| EventProperties.UpdateSetsFields | src/actions/events.ts:245-257 | The update writes the trimmed name, the sport, the date and the trimmed-or-null description into the caller's row and nowhere else. Ids and owners never change. |
| EventProperties.UpdateKeepsStaleVenuesWhenDeleteFails | src/actions/events.ts:264-276 | The venue delete's error is ignored. If it fails, the update still succeeds and the event keeps its old venues next to the new ones. |
| EventProperties.UpdateInsertFailureLeavesNoVenues | src/actions/events.ts:264-280 | Nothing is rolled back when the re-insert fails. The caller gets the insert error, and the event keeps its new fields with no venues. |
| EventProperties.DeleteIsFinal | src/actions/events.ts:305-328 | After a successful delete, no row has the id. A second delete fails with "Event not found or access denied", and a read fails too. |
| EventProperties.DeleteRemovesId | src/actions/events.ts:316-328 | A successful delete leaves no row with the id: the owner's row was the only one. |
| EventProperties.DeleteEventFailureLeavesNoVenues | src/actions/events.ts:316-328 | Venues go first. If the event delete then fails, the caller gets its error and the event survives with no venues. |
| EventProperties.VenueDeleteFailureBlocksDelete | src/actions/events.ts:316-324 | The venue delete's error is ignored, but if the event still has venues the foreign key refuses the event delete: the caller gets the foreign-key error and nothing changes. |
| EventProperties.DeleteLeavesNoOrphans | src/actions/events.ts:316-332 | After a successful delete no venue row references the deleted id. |
| EventProperties.UpdateEventsShape | src/actions/events.ts:200-290 | An update leaves the events table either as it was or as the update of the caller's row made it. |
| EventProperties.UpdatePreservesValid | src/actions/events.ts:200-290 | An update keeps ids unique and below the next id. |
| EventProperties.UpdateIsolatesOwners | src/actions/events.ts:254-255 | An update by one user never removes or alters another user's events. |
| EventProperties.DeleteIsolatesOwners | src/actions/events.ts:305-324 | A delete by one user never removes another user's events. |
| EventProperties.CreateKeepsExistingEvents | src/actions/events.ts:156-189 | A create only appends: every existing event survives it, even when the rollback runs. |

## Left out

- Rendering, routing, form widgets and client-side schemas: they draw the data and duplicate the server checks rather than add logic.
- Authentication (`supabase.auth.getUser`, password and OAuth sign-in): the current user is an `Option<UserId>` parameter.
- The network, the client library and the store's row-level policies: each storage call is a `Call` flag that succeeds or fails with a message.
- `revalidatePath` and `console.error`: they are cache invalidation and logging, with no effect on results or tables.
- `created_at` and `updated_at`: timestamps from the clock are not modelled. The update's `updated_at` write is left out with them.
- Date parsing and formatting: `date_time` is an integer key ordered like the stored timestamps. A form date that is missing or empty is `None`.
- Row ids: they are natural numbers handed out in sequence, where the store generates opaque strings.
- The `Promise.all` fan-out of the venue selects in `getEvents`: it is modelled as a sequential map, since the reads are independent.
- The order of venue rows within an event, and of events with equal dates: neither is specified by the queries. The model uses table order and a stable sort.
- The schema is not part of this model. The foreign key from `venues.event_id` to `events.id` is modelled with the default `NO ACTION` on delete: an event delete that would leave referencing venues is refused with the store's foreign-key error, whose constraint name follows the default naming. With `ON DELETE CASCADE` the venues would instead go with the event; either way no venue is left referencing a deleted event.
- Values of the wrong runtime type (a non-string name, a non-array venue list): the form is modelled with its declared types. A missing venue list reads as the empty list.
- Events.GetEventById: the "Event not found" branch is not modelled because it cannot be reached. `.single()` reports an error whenever it does not find exactly one row, so the earlier error branch always fires first.
- Text.Lower: case folding covers ASCII letters only. The store's locale-dependent folding of other letters is not modelled.
- `null` and `undefined` are both `None`. The actions return a stored null description or address as null after a write, and as undefined after a read; the model does not tell the two apart.
- Events.ReturnedEvent: the venue rows a write returns also carry `event_id` and `created_at`, and the event row carries `created_at` and `updated_at`. `Venue` and `Event` do not hold those columns, so the model drops them.
- EventProperties.CreateThenGet: the equality it proves holds up to the two abstractions above. In the source the created event holds venue rows with extra columns and nulls, while the read holds plain venues with undefined values.
- Capacity is an integer. A JavaScript number can also be fractional or `NaN`, and `capacity || null` turns `NaN` into null as it does 0. The model does not cover those values.

## Findings

| source | as written | input that shows it | evidently intended | confidence | as-written member | corrected member |
|---|---|---|---|---|---|---|
| src/actions/events.ts:35 | The search text goes into the `ILIKE` pattern `%search%` unescaped, so `%`, `_` and `\` in it act as pattern characters. PostgREST also reads `*` as `%`. | The search `_` lists an event named "City Cup". The searches `%` and `*` list every event. | List the events whose name contains the search text, ignoring case. | not executed | EventProperties.UnderscoreSearchListsCityCup | Events.GetEvents |

`Events.GetEvents` takes the name comparison as a parameter. With `ILikePattern` it is the action as written, using `Like.ILikeContains`. `EventProperties.UnderscoreSearchListsCityCup`, `Like.UnderscoreSearchMatchesOtherNames`, `Like.WildcardSearchesMatchEveryName` exhibit the discrepancy. With `Substring` it is the corrected listing, using `Text.ContainsIgnoreCase`; its contract proves the listing keeps exactly the events that pass that test. `EventProperties.ListingsAgreeWithoutWildcards` proves the two listings are equal whenever the search holds no pattern character.

=== FILE: action_helpers.dfy ===
/**
 * The uniform result shape every server action returns, and `safeAction`,
 * which turns whatever the wrapped body does (return or throw) into it.
 */
module ActionHelpers {

  /** `{ success: true, data }` or `{ success: false, error }`, never both. */
  datatype ActionResult<+T> = Success(data: T) | Failure(error: string)

  /** A thrown value: an `Error` instance carries a message, anything else does not. */
  datatype Thrown = ErrorValue(message: string) | OtherValue

  /** How the wrapped body finished: it returned a value or it threw. */
  datatype Completion<+T> = Normal(value: T) | Abrupt(thrown: Thrown)

  const UnexpectedError: string := "An unexpected error occurred"

  /** Every completion, including every throw, becomes a result: nothing escapes. */
  function SafeAction<T>(c: Completion<T>): (r: ActionResult<T>)
    ensures r.Success? <==> c.Normal?
    ensures c.Normal? ==> r.data == c.value
    ensures c.Abrupt? && c.thrown.ErrorValue? ==> r.error == c.thrown.message
    ensures c.Abrupt? && c.thrown.OtherValue? ==> r.error == UnexpectedError
  {
    match c
    case Normal(v) => Success(v)
    case Abrupt(ErrorValue(m)) => Failure(m)
    case Abrupt(OtherValue) => Failure(UnexpectedError)
  }

  /** The caller's view of a result: re-raise a failure as an `Error` with its message. */
  function Rethrow<T>(r: ActionResult<T>): Completion<T> {
    match r
    case Success(v) => Normal(v)
    case Failure(m) => Abrupt(ErrorValue(m))
  }

  /** Wrapping loses nothing: a result rethrown and wrapped again is the same result. */
  lemma WrapRethrowIdentity<T>(r: ActionResult<T>)
    ensures SafeAction(Rethrow(r)) == r
  {
  }

  /**
   * Only a non-`Error` throw loses information; every other completion is
   * recovered exactly from the result.
   */
  lemma RethrowWrapIdentity<T>(c: Completion<T>)
    ensures Rethrow(SafeAction(c)) == c <==> !(c.Abrupt? && c.thrown.OtherValue?)
  {
  }
}

=== FILE: collections.dfy ===
/** Order-preserving filtering of table rows, the shape of every `WHERE` the actions issue. */
module Collections {

  /** The elements of `s` that satisfy `keep`, in their original order. */
  function Filter<T>(s: seq<T>, keep: T -> bool): (r: seq<T>)
    ensures |r| <= |s|
    ensures forall x | x in r :: x in s && keep(x)
    ensures forall x | x in s && keep(x) :: x in r
    ensures forall i | 0 <= i < |r| :: keep(r[i])
  {
    if |s| == 0 then []
    else if keep(s[0]) then [s[0]] + Filter(s[1..], keep)
    else Filter(s[1..], keep)
  }

  /** Filtering distributes over concatenation (a table grown by an append). */
  lemma {:induction false} FilterConcat<T>(a: seq<T>, b: seq<T>, keep: T -> bool)
    ensures Filter(a + b, keep) == Filter(a, keep) + Filter(b, keep)
  {
    if |a| > 0 {
      assert (a + b)[1..] == a[1..] + b;
      FilterConcat(a[1..], b, keep);
    } else {
      assert a + b == b;
    }
  }

  /** A filter that keeps every element changes nothing. */
  lemma {:induction false} FilterKeepsAll<T>(s: seq<T>, keep: T -> bool)
    requires forall x | x in s :: keep(x)
    ensures Filter(s, keep) == s
  {
    if |s| > 0 {
      FilterKeepsAll(s[1..], keep);
    }
  }

  /** Two tests that agree on every element of `s` select the same elements. */
  lemma {:induction false} FilterAgrees<T>(s: seq<T>, p: T -> bool, q: T -> bool)
    requires forall x | x in s :: p(x) == q(x)
    ensures Filter(s, p) == Filter(s, q)
  {
    if |s| > 0 {
      FilterAgrees(s[1..], p, q);
    }
  }

  /** No two elements of `s` share a key. */
  predicate Distinct<T, K(==)>(s: seq<T>, key: T -> K) {
    forall i, j | 0 <= i < j < |s| :: key(s[i]) != key(s[j])
  }

  /** Removing rows cannot create a duplicate key. */
  lemma {:induction false} FilterKeepsDistinct<T, K>(s: seq<T>, keep: T -> bool, key: T -> K)
    ensures Distinct(s, key) ==> Distinct(Filter(s, keep), key)
  {
    if |s| > 0 && Distinct(s, key) {
      assert Distinct(s[1..], key) by {
        forall i, j | 0 <= i < j < |s[1..]| ensures key(s[1..][i]) != key(s[1..][j]) {
          assert s[1..][i] == s[i + 1] && s[1..][j] == s[j + 1];
        }
      }
      FilterKeepsDistinct(s[1..], keep, key);
      var tail := Filter(s[1..], keep);
      if keep(s[0]) {
        forall x | x in tail ensures key(x) != key(s[0]) {
          var k :| 0 <= k < |s[1..]| && s[1..][k] == x;
          assert s[k + 1] == x;
        }
        var r := [s[0]] + tail;
        forall i, j | 0 <= i < j < |r| ensures key(r[i]) != key(r[j]) {
          if i == 0 {
            assert r[j] in tail;
          } else {
            assert r[i] == tail[i - 1] && r[j] == tail[j - 1];
          }
        }
      }
    }
  }
}

=== FILE: event_properties.dfy ===
/**
 * Properties that relate several calls, or that pin down the partial-failure
 * behaviour of the writing actions.
 */
module EventProperties {
  import opened Wrappers
  import opened Types
  import opened Text
  import opened Like
  import opened Collections
  import opened Storage
  import opened ActionHelpers
  import opened Events

  // ---------------------------------------------------------------------
  // Validation and normalisation
  // ---------------------------------------------------------------------

  /**
   * The checks run in a fixed order and the first one that fails names the
   * error: a blank name, then an empty sport, then a missing date, then an
   * empty venue list.
   */
  lemma ValidationOrder(form: EventFormData)
    ensures ValidationError(form) == Some(NameRequired) <==> AllWhitespace(form.name)
    ensures ValidationError(form) == Some(SportRequired) <==>
      !AllWhitespace(form.name) && form.sport_type == ""
    ensures ValidationError(form) == Some(DateRequired) <==>
      !AllWhitespace(form.name) && form.sport_type != "" && form.date_time.None?
    ensures ValidationError(form) == Some(VenueRequired) <==>
      !AllWhitespace(form.name) && form.sport_type != "" && form.date_time.Some? && form.venues == []
  {
    TrimEmptyIffBlank(form.name);
  }

  /** Normalising a stored venue again changes nothing: what the store holds is already normal. */
  lemma {:induction false} NormalizeVenueIdempotent(v: VenueInput)
    ensures NormalizeVenue(NormalizeVenue(v)) == NormalizeVenue(v)
  {
    TrimIdempotent(v.name);
    if v.address.Some? {
      TrimIdempotent(v.address.value);
      TrimEmptyIffBlank(v.address.value);
      TrimEmptyIffBlank(Trim(v.address.value));
    }
  }

  /** A row written from a form reads back unchanged: nothing it stores is falsy-but-present. */
  lemma NormalizedVenueReadsBack(v: VenueInput, id: Id, eventId: Id)
    ensures var n := NormalizeVenue(v);
      ReadVenue(VenueRow(id, eventId, n.name, n.address, n.capacity))
      == Venue(id, Trim(v.name), TrimOrNull(v.address), CapacityOrNull(v.capacity))
  {
  }

  // ---------------------------------------------------------------------
  // Venue selections over changed tables
  // ---------------------------------------------------------------------

  lemma {:induction false} VenuesOfConcat(a: seq<VenueRow>, b: seq<VenueRow>, id: Id)
    ensures VenuesOf(a + b, id) == VenuesOf(a, id) + VenuesOf(b, id)
  {
    if |a| > 0 {
      assert (a + b)[1..] == a[1..] + b;
      VenuesOfConcat(a[1..], b, id);
    } else {
      assert a + b == b;
    }
  }

  /** A batch written for one event is exactly that event's venues, and no other event's. */
  lemma {:induction false} VenuesOfNewRows(eventId: Id, inputs: seq<VenueInput>, first: Id, id: Id)
    ensures VenuesOf(NewVenueRows(eventId, inputs, first), id) ==
      if id == eventId then NewVenueRows(eventId, inputs, first) else []
  {
    var rows := NewVenueRows(eventId, inputs, first);
    if |inputs| > 0 {
      VenuesOfNewRows(eventId, inputs[1..], first + 1, id);
      assert rows[1..] == NewVenueRows(eventId, inputs[1..], first + 1);
    }
  }

  /** In a valid store nothing references the next id yet. */
  lemma NothingReferencesNextId(st: Store)
    requires Valid(st)
    ensures VenuesOf(st.venues, st.nextId) == []
    ensures forall e | e in st.events :: e.id != st.nextId
  {
    forall v | v in st.venues ensures v.event_id != st.nextId {
      var i :| 0 <= i < |st.venues| && st.venues[i] == v;
    }
    NoVenuesOf(st.venues, st.nextId);
  }

  // ---------------------------------------------------------------------
  // Listing: the query's pattern match against the intended substring test
  // ---------------------------------------------------------------------

  /**
   * When the search holds no pattern character, the listing as the query
   * runs it and the intended listing are the same result.
   */
  lemma ListingsAgreeWithoutWildcards(st: Store, user: Option<UserId>, q: EventsQuery, f: ListFaults)
    requires q.search.None? || NoWildcards(q.search.value)
    ensures GetEvents(st, user, q, ILikePattern, f) == GetEvents(st, user, q, Substring, f)
  {
    if user.Some? {
      var u := user.value;
      var byPattern := (e: EventRow) => Listed(ILikePattern, e, u, q);
      var bySubstring := (e: EventRow) => Listed(Substring, e, u, q);
      forall e | e in st.events ensures byPattern(e) == bySubstring(e) {
        if q.search.Some? {
          var b := ILikeContains(e.name, q.search.value);
        }
      }
      FilterAgrees(st.events, byPattern, bySubstring);
    }
  }

  /**
   * The search `_` lists an event named "City Cup" as the query runs it,
   * while the intended listing is empty.
   */
  lemma UnderscoreSearchListsCityCup()
    ensures var st := Store([EventRow(0, "City Cup", "Soccer", 1, None, "u")], [], 1);
      var q := EventsQuery(Some("_"), None);
      var f := ListFaults(Succeeds, {});
      && |GetEvents(st, Some("u"), q, ILikePattern, f).data| == 1
      && GetEvents(st, Some("u"), q, Substring, f) == Success([])
  {
    var e := EventRow(0, "City Cup", "Soccer", 1, None, "u");
    var q := EventsQuery(Some("_"), None);
    UnderscoreSearchMatchesOtherNames();
    assert Listed(ILikePattern, e, "u", q);
    assert !Listed(Substring, e, "u", q);
    var byPattern := ListedRows(ILikePattern, [e], "u", q);
    var bySubstring := ListedRows(Substring, [e], "u", q);
    assert |multiset(byPattern)| == 1 by {
      assert Filter([e], (r: EventRow) => Listed(ILikePattern, r, "u", q)) == [e];
    }
    assert |multiset(bySubstring)| == 0 by {
      assert Filter([e], (r: EventRow) => Listed(Substring, r, "u", q)) == [];
    }
  }

  // ---------------------------------------------------------------------
  // createEvent
  // ---------------------------------------------------------------------

  /**
   * When the venue insert fails the just-inserted event is deleted again: the
   * caller gets the venue error and, if that delete succeeds, both tables are
   * as they were before the call.
   */
  lemma CreateRollsBack(st: Store, u: UserId, form: EventFormData, f: CreateFaults)
    requires Valid(st) && FormIsComplete(form)
    requires f.eventInsert.Succeeds? && f.venueInsert.Fails? && f.rollback.Succeeds?
    ensures CreateEvent(st, Some(u), form, f).result == Failure(f.venueInsert.message)
    ensures CreateEvent(st, Some(u), form, f).store.events == st.events
    ensures CreateEvent(st, Some(u), form, f).store.venues == st.venues
  {
    var row := NewEventRow(form, u).(id := st.nextId);
    var owner: Option<UserId> := None;
    var id := st.nextId;
    var keep := (e: EventRow) => !DeleteMatches(e, id, owner);
    NothingReferencesNextId(st);
    FilterConcat(st.events, [row], keep);
    FilterKeepsAll(st.events, keep);
    assert Filter([row], keep) == [];
  }

  /**
   * If the compensating delete fails too, its error is swallowed: the caller
   * still gets the venue error, and the new event stays behind with no venues.
   */
  lemma CreateRollbackLost(st: Store, u: UserId, form: EventFormData, f: CreateFaults)
    requires Valid(st) && FormIsComplete(form)
    requires f.eventInsert.Succeeds? && f.venueInsert.Fails? && f.rollback.Fails?
    ensures CreateEvent(st, Some(u), form, f).result == Failure(f.venueInsert.message)
    ensures CreateEvent(st, Some(u), form, f).store.events == st.events + [NewEventRow(form, u).(id := st.nextId)]
    ensures VenuesOf(CreateEvent(st, Some(u), form, f).store.venues, st.nextId) == []
  {
    NothingReferencesNextId(st);
  }

  /** A create whose inserts both succeed appends one event row and one venue row per venue. */
  lemma CreateSuccessStep(st: Store, u: UserId, form: EventFormData, f: CreateFaults)
    requires FormIsComplete(form) && f.eventInsert.Succeeds? && f.venueInsert.Succeeds?
    ensures var row := NewEventRow(form, u).(id := st.nextId);
      var rows := NewVenueRows(st.nextId, NormalizeVenues(form.venues), st.nextId + 1);
      CreateEvent(st, Some(u), form, f) ==
        Outcome(Success(ReturnedEvent(row, rows)),
                Store(st.events + [row], st.venues + rows, st.nextId + 1 + |form.venues|))
  {
  }

  /** A read of an id that selects exactly one owned row returns that row with its venues. */
  lemma GetOfOnlyOwnedRow(st: Store, u: UserId, id: Id, row: EventRow)
    requires Valid(st) && row in st.events && Owns(row, id, u)
    requires forall e | e in st.events && Owns(e, id, u) :: e == row
    ensures GetEventById(st, Some(u), id, GetFaults(Succeeds, Succeeds)) == Success(ReadEvent(row, VenuesOf(st.venues, id)))
  {
  }

  /** The venues a create writes read back as the create returned them. */
  lemma CreatedVenuesReadBack(form: EventFormData, u: UserId, id: Id)
    requires FormIsComplete(form)
    ensures var row := NewEventRow(form, u).(id := id);
      var rows := NewVenueRows(id, NormalizeVenues(form.venues), id + 1);
      && ReadEvent(row, rows) == ReturnedEvent(row, rows)
      && (forall i | 0 <= i < |form.venues| ::
            && ReturnedEvent(row, rows).venues[i].name == Trim(form.venues[i].name)
            && ReturnedEvent(row, rows).venues[i].address == TrimOrNull(form.venues[i].address)
            && ReturnedEvent(row, rows).venues[i].capacity == CapacityOrNull(form.venues[i].capacity))
  {
    var row := NewEventRow(form, u).(id := id);
    var rows := NewVenueRows(id, NormalizeVenues(form.venues), id + 1);
    forall i | 0 <= i < |rows| ensures ReadVenue(rows[i]) == ReturnedVenue(rows[i]) {
      NormalizedVenueReadsBack(form.venues[i], id + 1 + i, id);
    }
    assert ReadVenues(rows) == ReturnedEvent(row, rows).venues;
  }

  /** A batch appended for the next id is exactly that id's venues afterwards. */
  lemma AppendedBatchIsAllVenues(st: Store, vs: seq<VenueInput>)
    requires Valid(st)
    ensures var rows := NewVenueRows(st.nextId, vs, st.nextId + 1);
      VenuesOf(st.venues + rows, st.nextId) == rows
  {
    var rows := NewVenueRows(st.nextId, vs, st.nextId + 1);
    NothingReferencesNextId(st);
    VenuesOfConcat(st.venues, rows, st.nextId);
    VenuesOfNewRows(st.nextId, vs, st.nextId + 1, st.nextId);
  }

  /** A row appended with the next id is the only row carrying that id. */
  lemma AppendedRowIsOnlyOne(st: Store, row: EventRow)
    requires Valid(st) && row.id == st.nextId
    ensures forall e | e in st.events + [row] && e.id == row.id :: e == row
  {
    forall e | e in st.events + [row] && e.id == row.id ensures e == row {
      assert e in st.events ==> e.id < st.nextId;
    }
  }

  /**
   * Round trip: reading back a freshly created event returns what the create
   * returned, whose fields are the normalised form.
   */
  lemma CreateThenGet(st: Store, u: UserId, form: EventFormData, f: CreateFaults)
    requires Valid(st) && FormIsComplete(form)
    requires f.eventInsert.Succeeds? && f.venueInsert.Succeeds?
    ensures var o := CreateEvent(st, Some(u), form, f);
      && o.result.Success?
      && GetEventById(o.store, Some(u), o.result.data.id, GetFaults(Succeeds, Succeeds)) == o.result
      && (forall i | 0 <= i < |form.venues| ::
            && o.result.data.venues[i].name == Trim(form.venues[i].name)
            && o.result.data.venues[i].address == TrimOrNull(form.venues[i].address)
            && o.result.data.venues[i].capacity == CapacityOrNull(form.venues[i].capacity))
  {
    var id := st.nextId;
    var row := NewEventRow(form, u).(id := id);
    var rows := NewVenueRows(id, NormalizeVenues(form.venues), id + 1);
    var after := Store(st.events + [row], st.venues + rows, id + 1 + |form.venues|);
    CreateSuccessStep(st, u, form, f);
    var o := CreateEvent(st, Some(u), form, f);
    assert o.store == after && o.result == Success(ReturnedEvent(row, rows));
    AppendedBatchIsAllVenues(st, NormalizeVenues(form.venues));
    AppendedRowIsOnlyOne(st, row);
    GetOfOnlyOwnedRow(after, u, id, row);
    CreatedVenuesReadBack(form, u, id);
  }

  // ---------------------------------------------------------------------
  // getEventById
  // ---------------------------------------------------------------------

  /**
   * Ownership isolation: asking for another user's event gives exactly the
   * answer the same request gets once that event is gone from the table.
   */
  lemma ForeignEventLooksMissing(st: Store, u: UserId, e: EventRow, f: GetFaults)
    requires Valid(st) && e in st.events && e.user_id != u
    ensures var gone := st.(events := Filter(st.events, (x: EventRow) => x.id != e.id));
      && GetEventById(st, Some(u), e.id, f).Failure?
      && GetEventById(st, Some(u), e.id, f) == GetEventById(gone, Some(u), e.id, f)
  {
    var keep := (x: EventRow) => x.id != e.id;
    var gone := st.(events := Filter(st.events, keep));
    FilterKeepsDistinct(st.events, keep, EventKey);
    assert Valid(gone);
    forall x | x in st.events && x.id == e.id ensures x == e {
      var i :| 0 <= i < |st.events| && st.events[i] == x;
      var j :| 0 <= j < |st.events| && st.events[j] == e;
      assert EventKey(st.events[i]) == EventKey(st.events[j]);
    }
  }

  // ---------------------------------------------------------------------
  // updateEvent
  // ---------------------------------------------------------------------

  /**
   * A fully successful update replaces the venue set wholesale: afterwards
   * the event's venues are exactly the submitted ones, normalised, and no
   * other event's venues changed.
   */
  lemma UpdateReplacesVenues(st: Store, u: UserId, id: Id, form: EventFormData, f: UpdateFaults)
    requires Valid(st) && FormIsComplete(form)
    requires exists e | e in st.events :: Owns(e, id, u)
    requires f == UpdateFaults(Succeeds, Succeeds, Succeeds, Succeeds)
    ensures var o := UpdateEvent(st, Some(u), id, form, f);
      && o.result.Success?
      && VenuesOf(o.store.venues, id) == NewVenueRows(id, NormalizeVenues(form.venues), st.nextId)
      && (forall other | other != id :: VenuesOf(o.store.venues, other) == VenuesOf(st.venues, other))
  {
    var o := UpdateEvent(st, Some(u), id, form, f);
    var keep := (v: VenueRow) => v.event_id != id;
    var kept := Filter(st.venues, keep);
    var rows := NewVenueRows(id, NormalizeVenues(form.venues), st.nextId);
    assert o.store.venues == kept + rows;
    NoVenuesOf(kept, id);
    VenuesOfConcat(kept, rows, id);
    VenuesOfNewRows(id, NormalizeVenues(form.venues), st.nextId, id);
    forall other | other != id ensures VenuesOf(o.store.venues, other) == VenuesOf(st.venues, other) {
      VenuesOfConcat(kept, rows, other);
      VenuesOfNewRows(id, NormalizeVenues(form.venues), st.nextId, other);
      VenuesOfAfterDelete(st.venues, id, other);
    }
  }

  /** With unique ids, the rows carrying `id` are the owner's row, and only it takes the changes. */
  lemma ApplyChangesOwnedRow(events: seq<EventRow>, id: Id, u: UserId, c: EventChanges)
    requires Distinct(events, EventKey)
    requires exists e | e in events :: Owns(e, id, u)
    ensures var r := ApplyWhereOwned(events, id, u, c);
      forall i | 0 <= i < |events| ::
        && (events[i].id != id ==> r[i] == events[i])
        && (events[i].id == id ==> r[i] == Apply(events[i], c))
  {
    var e :| e in events && Owns(e, id, u);
    var j :| 0 <= j < |events| && events[j] == e;
    forall i | 0 <= i < |events| && events[i].id == id ensures events[i].user_id == u {
      assert EventKey(events[i]) == EventKey(events[j]);
    }
  }

  /** Once validation and the ownership check pass, an update is its writes. */
  lemma UpdateIsItsWrites(st: Store, u: UserId, id: Id, form: EventFormData, f: UpdateFaults)
    requires Valid(st) && FormIsComplete(form)
    requires exists e | e in st.events :: Owns(e, id, u)
    requires f.ownershipRead.Succeeds?
    ensures UpdateEvent(st, Some(u), id, form, f) == Wrap(UpdateWrites(st, u, id, form, f))
  {
  }

  /** Once the ownership check and the event update succeed, the events table is the updated one. */
  lemma UpdateEventsStep(st: Store, u: UserId, id: Id, form: EventFormData, f: UpdateFaults)
    requires Valid(st) && FormIsComplete(form)
    requires exists e | e in st.events :: Owns(e, id, u)
    requires f.ownershipRead.Succeeds? && f.eventUpdate.Succeeds?
    ensures UpdateEvent(st, Some(u), id, form, f).store.events == ApplyWhereOwned(st.events, id, u, Changes(form))
  {
  }

  /**
   * The update writes the submitted fields, normalised, into the caller's row
   * and nowhere else; the owner column never changes.
   */
  lemma UpdateSetsFields(st: Store, u: UserId, id: Id, form: EventFormData, f: UpdateFaults)
    requires Valid(st) && FormIsComplete(form)
    requires exists e | e in st.events :: Owns(e, id, u)
    requires f.ownershipRead.Succeeds? && f.eventUpdate.Succeeds?
    ensures var o := UpdateEvent(st, Some(u), id, form, f);
      && |o.store.events| == |st.events|
      && (forall i | 0 <= i < |st.events| ::
            && o.store.events[i].id == st.events[i].id
            && o.store.events[i].user_id == st.events[i].user_id
            && (st.events[i].id != id ==> o.store.events[i] == st.events[i])
            && (st.events[i].id == id ==>
                  && o.store.events[i].name == Trim(form.name)
                  && o.store.events[i].sport_type == form.sport_type
                  && o.store.events[i].date_time == form.date_time.value
                  && o.store.events[i].description == TrimOrNull(form.description)))
  {
    UpdateEventsStep(st, u, id, form, f);
    ApplyChangesOwnedRow(st.events, id, u, Changes(form));
  }

  /**
   * The venue delete's error is ignored: when it fails the update still
   * succeeds, and the event keeps its old venues next to the new ones.
   */
  lemma UpdateKeepsStaleVenuesWhenDeleteFails(st: Store, u: UserId, id: Id, form: EventFormData, f: UpdateFaults)
    requires Valid(st) && FormIsComplete(form)
    requires exists e | e in st.events :: Owns(e, id, u)
    requires f.ownershipRead.Succeeds? && f.eventUpdate.Succeeds? && f.venueDelete.Fails? && f.venueInsert.Succeeds?
    ensures var o := UpdateEvent(st, Some(u), id, form, f);
      && o.result.Success?
      && VenuesOf(o.store.venues, id) == VenuesOf(st.venues, id) + NewVenueRows(id, NormalizeVenues(form.venues), st.nextId)
  {
    UpdateIsItsWrites(st, u, id, form, f);
    var rows := NewVenueRows(id, NormalizeVenues(form.venues), st.nextId);
    VenuesOfConcat(st.venues, rows, id);
    VenuesOfNewRows(id, NormalizeVenues(form.venues), st.nextId, id);
  }

  /**
   * Nothing is rolled back when the re-insert fails: the caller gets the
   * insert's error, the event keeps its new fields and is left with no venues.
   */
  lemma UpdateInsertFailureLeavesNoVenues(st: Store, u: UserId, id: Id, form: EventFormData, f: UpdateFaults)
    requires Valid(st) && FormIsComplete(form)
    requires exists e | e in st.events :: Owns(e, id, u)
    requires f.ownershipRead.Succeeds? && f.eventUpdate.Succeeds? && f.venueDelete.Succeeds? && f.venueInsert.Fails?
    ensures var o := UpdateEvent(st, Some(u), id, form, f);
      && o.result == Failure(f.venueInsert.message)
      && VenuesOf(o.store.venues, id) == []
      && o.store.events == ApplyWhereOwned(st.events, id, u, Changes(form))
      && exists e | e in o.store.events :: Owns(e, id, u)
  {
    UpdateIsItsWrites(st, u, id, form, f);
    var e :| e in st.events && Owns(e, id, u);
    var i :| 0 <= i < |st.events| && st.events[i] == e;
    assert Owns(ApplyWhereOwned(st.events, id, u, Changes(form))[i], id, u);
  }

  // ---------------------------------------------------------------------
  // deleteEvent
  // ---------------------------------------------------------------------

  /**
   * Delete finality: after a successful delete no row has the id, so a second
   * delete fails with the not-found error and a read fails too, whatever the
   * storage calls do.
   */
  lemma DeleteIsFinal(st: Store, u: UserId, id: Id, f: DeleteFaults, again: DeleteFaults, read: GetFaults)
    requires Valid(st)
    requires DeleteEvent(st, Some(u), id, f).result.Success?
    ensures var after := DeleteEvent(st, Some(u), id, f).store;
      && (forall e | e in after.events :: e.id != id)
      && DeleteEvent(after, Some(u), id, again) == Outcome(Failure(NotFoundOrDenied), after)
      && GetEventById(after, Some(u), id, read).Failure?
  {
    DeleteRemovesId(st, u, id, f);
  }

  /** A successful delete leaves no row with the id: the owner's row was the only one. */
  lemma DeleteRemovesId(st: Store, u: UserId, id: Id, f: DeleteFaults)
    requires Valid(st)
    requires DeleteEvent(st, Some(u), id, f).result.Success?
    ensures forall x | x in DeleteEvent(st, Some(u), id, f).store.events :: x.id != id
  {
    var after := DeleteEvent(st, Some(u), id, f).store;
    var e :| e in st.events && Owns(e, id, u);
    forall x | x in after.events ensures x.id != id {
      OneRowPerId(st, x, e);
    }
  }

  /**
   * Venues go before the event: if the event delete then fails, the caller
   * gets its error and the event survives with no venues.
   */
  lemma DeleteEventFailureLeavesNoVenues(st: Store, u: UserId, id: Id, f: DeleteFaults)
    requires Valid(st)
    requires exists e | e in st.events :: Owns(e, id, u)
    requires f.ownershipRead.Succeeds? && f.venueDelete.Succeeds? && f.eventDelete.Fails?
    ensures var o := DeleteEvent(st, Some(u), id, f);
      && o.result == Failure(f.eventDelete.message)
      && o.store.events == st.events
      && VenuesOf(o.store.venues, id) == []
  {
  }

  /**
   * The venue delete's error is ignored, but the foreign key is not: if the
   * event still has venues, the event delete is refused and nothing changes.
   */
  lemma VenueDeleteFailureBlocksDelete(st: Store, u: UserId, id: Id, f: DeleteFaults)
    requires Valid(st)
    requires exists e | e in st.events :: Owns(e, id, u)
    requires VenuesOf(st.venues, id) != []
    requires f.ownershipRead.Succeeds? && f.venueDelete.Fails? && f.eventDelete.Succeeds?
    ensures DeleteEvent(st, Some(u), id, f) == Outcome(Failure(ForeignKeyViolation), st)
  {
  }

  /** The store admits no successful delete that leaves venues referencing the removed event. */
  lemma DeleteLeavesNoOrphans(st: Store, u: UserId, id: Id, f: DeleteFaults)
    requires DeleteEvent(st, Some(u), id, f).result.Success?
    ensures forall v | v in DeleteEvent(st, Some(u), id, f).store.venues :: v.event_id != id
  {
  }

  /** An update leaves the events table as it was, or as the update of the caller's row made it. */
  lemma UpdateEventsShape(st: Store, u: UserId, id: Id, form: EventFormData, f: UpdateFaults)
    ensures var after := UpdateEvent(st, Some(u), id, form, f).store;
      || after.events == st.events
      || (FormIsComplete(form) && after.events == ApplyWhereOwned(st.events, id, u, Changes(form)))
  {
  }

  /** An update keeps the store's invariant: ids stay unique and below the next id. */
  lemma UpdatePreservesValid(st: Store, u: Option<UserId>, id: Id, form: EventFormData, f: UpdateFaults)
    requires Valid(st)
    ensures Valid(UpdateEvent(st, u, id, form, f).store)
  {
  }

  /** An update by one user never removes or alters another user's events. */
  lemma UpdateIsolatesOwners(st: Store, u: UserId, id: Id, form: EventFormData, f: UpdateFaults)
    ensures forall e | e in st.events && e.user_id != u :: e in UpdateEvent(st, Some(u), id, form, f).store.events
  {
    var after := UpdateEvent(st, Some(u), id, form, f).store.events;
    UpdateEventsShape(st, u, id, form, f);
    if after != st.events {
      forall e | e in st.events && e.user_id != u ensures e in after {
        var i :| 0 <= i < |st.events| && st.events[i] == e;
        assert after[i] == e;
      }
    }
  }

  /** A delete by one user never removes another user's events. */
  lemma DeleteIsolatesOwners(st: Store, u: UserId, id: Id, f: DeleteFaults)
    ensures forall e | e in st.events && e.user_id != u :: e in DeleteEvent(st, Some(u), id, f).store.events
  {
  }

  /** A create only appends: every existing event survives it. */
  lemma CreateKeepsExistingEvents(st: Store, u: UserId, form: EventFormData, f: CreateFaults)
    requires Valid(st)
    ensures forall e | e in st.events :: e in CreateEvent(st, Some(u), form, f).store.events
  {
    NothingReferencesNextId(st);
  }
}

=== FILE: events.dfy ===
/**
 * The event/venue orchestrator: the five server actions over the two tables.
 * Each action is a pure function of the store, the current user (`None` when
 * nobody is signed in), its input and the success or failure of every
 * storage call it issues; it returns the action's result and the store after
 * the call. The bodies run through `SafeAction`, exactly as the actions wrap
 * themselves in `safeAction`.
 */
module Events {
  import opened Wrappers
  import opened Types
  import opened Text
  import opened Like
  import opened Collections
  import opened Sorting
  import opened Storage
  import opened ActionHelpers

  const NotAuthenticated: string := "Not authenticated"
  const NameRequired: string := "Event name is required"
  const SportRequired: string := "Sport type is required"
  const DateRequired: string := "Date and time are required"
  const VenueRequired: string := "At least one venue is required"
  const NotFoundOrDenied: string := "Event not found or access denied"

  /** What an action hands back, together with the store it leaves behind. */
  datatype Outcome<+T> = Outcome(result: ActionResult<T>, store: Store)

  /** An action body's completion (return or throw) and the store it leaves behind. */
  datatype Run<+T> = Run(completion: Completion<T>, store: Store)

  function Throw<T>(message: string, st: Store): Run<T> {
    Run(Abrupt(ErrorValue(message)), st)
  }

  function Wrap<T>(run: Run<T>): Outcome<T> {
    Outcome(SafeAction(run.completion), run.store)
  }

  // ---------------------------------------------------------------------
  // Validation and normalisation of submitted forms
  // ---------------------------------------------------------------------

  /**
   * A form the server accepts: the name has a non-blank character, the sport
   * is non-empty (any non-empty string: membership in the sport list is not
   * checked), a date is given and there is at least one venue.
   */
  predicate FormIsComplete(form: EventFormData) {
    && !AllWhitespace(form.name)
    && form.sport_type != ""
    && form.date_time.Some?
    && |form.venues| > 0
  }

  /** The first failed check, in the order the actions perform them. */
  function ValidationError(form: EventFormData): (r: Option<string>)
    ensures r.None? <==> FormIsComplete(form)
    ensures r.Some? ==> r.value in {NameRequired, SportRequired, DateRequired, VenueRequired}
  {
    TrimEmptyIffBlank(form.name);
    if Trim(form.name) == [] then Some(NameRequired)
    else if form.sport_type == "" then Some(SportRequired)
    else if form.date_time.None? then Some(DateRequired)
    else if |form.venues| == 0 then Some(VenueRequired)
    else None
  }

  /** `text?.trim() || null`: trimmed text, with missing or blank text stored as null. */
  function TrimOrNull(s: Option<string>): (r: Option<string>)
    ensures r.None? <==> s.None? || AllWhitespace(s.value)
    ensures r.Some? ==> r.value == Trim(s.value) && r.value != ""
  {
    match s
    case None => None
    case Some(text) =>
      TrimEmptyIffBlank(text);
      var t := Trim(text);
      if t == "" then None else Some(t)
  }

  /**
   * `capacity || null` on write and `capacity || undefined` on read: zero,
   * the one falsy number, becomes absent.
   */
  function CapacityOrNull(c: Option<int>): (r: Option<int>)
    ensures r.None? <==> c.None? || c.value == 0
    ensures r.Some? ==> r == c
  {
    if c == Some(0) then None else c
  }

  /** The venue as it is written to the table. */
  function NormalizeVenue(v: VenueInput): (r: VenueInput)
    ensures r.name == Trim(v.name)
    ensures r.address.None? <==> v.address.None? || AllWhitespace(v.address.value)
    ensures r.address.Some? ==> r.address.value == Trim(v.address.value) && r.address.value != ""
    ensures r.capacity.None? <==> v.capacity.None? || v.capacity.value == 0
    ensures r.capacity.Some? ==> r.capacity == v.capacity
  {
    VenueInput(Trim(v.name), TrimOrNull(v.address), CapacityOrNull(v.capacity))
  }

  function NormalizeVenues(vs: seq<VenueInput>): (r: seq<VenueInput>)
    ensures |r| == |vs|
    ensures forall i | 0 <= i < |vs| :: r[i] == NormalizeVenue(vs[i])
  {
    seq(|vs|, i requires 0 <= i < |vs| => NormalizeVenue(vs[i]))
  }

  /** The event row a create inserts (the store replaces the id). */
  function NewEventRow(form: EventFormData, owner: UserId): EventRow
    requires form.date_time.Some?
  {
    EventRow(0, Trim(form.name), form.sport_type, form.date_time.value, TrimOrNull(form.description), owner)
  }

  /** The columns an update sets; the owner is not among them. */
  function Changes(form: EventFormData): EventChanges
    requires form.date_time.Some?
  {
    EventChanges(Trim(form.name), form.sport_type, form.date_time.value, TrimOrNull(form.description))
  }

  // ---------------------------------------------------------------------
  // Rows to events
  // ---------------------------------------------------------------------

  /** The read side's `x || undefined` on text: empty text reads as absent. */
  function TextOrAbsent(s: Option<string>): (r: Option<string>)
    ensures r.None? <==> s.None? || s.value == ""
    ensures r.Some? ==> r == s
  {
    if s == Some("") then None else s
  }

  /** A venue row as the read actions present it. */
  function ReadVenue(v: VenueRow): (r: Venue)
    ensures r.id == v.id && r.name == v.name
    ensures r.address.None? <==> v.address.None? || v.address.value == ""
    ensures r.address.Some? ==> r.address == v.address
    ensures r.capacity.None? <==> v.capacity.None? || v.capacity.value == 0
    ensures r.capacity.Some? ==> r.capacity == v.capacity
  {
    Venue(v.id, v.name, TextOrAbsent(v.address), CapacityOrNull(v.capacity))
  }

  function ReadVenues(vs: seq<VenueRow>): (r: seq<Venue>)
    ensures |r| == |vs|
    ensures forall i | 0 <= i < |vs| :: r[i] == ReadVenue(vs[i])
  {
    seq(|vs|, i requires 0 <= i < |vs| => ReadVenue(vs[i]))
  }

  /** An event row and its venue rows as the read actions present them. */
  function ReadEvent(e: EventRow, venues: seq<VenueRow>): (r: Event)
    ensures r.id == e.id && r.user_id == e.user_id && r.name == e.name
    ensures r.sport_type == e.sport_type && r.date_time == e.date_time
    ensures r.description.None? <==> e.description.None? || e.description.value == ""
    ensures r.description.Some? ==> r.description == e.description
    ensures |r.venues| == |venues|
    ensures forall i | 0 <= i < |venues| :: r.venues[i] == ReadVenue(venues[i])
  {
    Event(e.id, e.name, e.sport_type, e.date_time, TextOrAbsent(e.description), ReadVenues(venues), e.user_id)
  }

  /** A venue row handed back as the insert returned it (no conversion). */
  function ReturnedVenue(v: VenueRow): Venue {
    Venue(v.id, v.name, v.address, v.capacity)
  }

  /**
   * `{ ...event, venues }` after a write: the modelled columns of the rows
   * the store returned, unconverted. This is what a later read presents unless a stored text is
   * empty or a stored capacity is zero, which a read turns into absent values.
   */
  function ReturnedEvent(e: EventRow, venues: seq<VenueRow>): (r: Event)
    ensures r.id == e.id && r.user_id == e.user_id && r.name == e.name
    ensures r.sport_type == e.sport_type && r.date_time == e.date_time && r.description == e.description
    ensures |r.venues| == |venues|
    ensures forall i | 0 <= i < |venues| ::
      && r.venues[i].id == venues[i].id && r.venues[i].name == venues[i].name
      && r.venues[i].address == venues[i].address && r.venues[i].capacity == venues[i].capacity
    ensures r == ReadEvent(e, venues) <==>
      && e.description != Some("")
      && forall i | 0 <= i < |venues| :: venues[i].address != Some("") && venues[i].capacity != Some(0)
  {
    Event(e.id, e.name, e.sport_type, e.date_time, e.description,
          seq(|venues|, i requires 0 <= i < |venues| => ReturnedVenue(venues[i])), e.user_id)
  }

  /** The venue rows a read action sees: a failed venue select is read as no venues. */
  function VenueRowsRead(st: Store, id: Id, failed: bool): seq<VenueRow> {
    if failed then [] else VenuesOf(st.venues, id)
  }

  // ---------------------------------------------------------------------
  // getEvents
  // ---------------------------------------------------------------------

  /** The optional list filters; a missing parameter object reads as both absent. */
  datatype EventsQuery = EventsQuery(search: Option<string>, sportType: Option<string>)

  /** The event query, and the events whose venue select fails (their venues read as none). */
  datatype ListFaults = ListFaults(query: Call, venueReads: set<Id>)

  /**
   * How the name filter compares a name with the search text: as the query
   * sends it, the pattern match `name ILIKE '%search%'` on the raw text, or
   * as a plain case-insensitive substring test.
   */
  datatype NameSearch = ILikePattern | Substring

  predicate NameMatches(how: NameSearch, name: string, search: string) {
    match how
    case ILikePattern => ILikeContains(name, search)
    case Substring => ContainsIgnoreCase(name, search)
  }

  /** The name filter applies only to a non-empty search. */
  predicate SearchKeeps(how: NameSearch, name: string, search: Option<string>) {
    search.None? || search.value == "" || NameMatches(how, name, search.value)
  }

  /** The sport filter applies only to a non-empty value other than "all", and then requires equality. */
  predicate SportKeeps(sport: string, filter: Option<string>) {
    filter.None? || filter.value == "" || filter.value == AllSports || sport == filter.value
  }

  predicate Listed(how: NameSearch, e: EventRow, owner: UserId, q: EventsQuery) {
    e.user_id == owner && SearchKeeps(how, e.name, q.search) && SportKeeps(e.sport_type, q.sportType)
  }

  /** The rows the list query selects, in ascending date order. */
  function ListedRows(how: NameSearch, events: seq<EventRow>, owner: UserId, q: EventsQuery): (r: seq<EventRow>)
    ensures SortedByDate(r)
    ensures multiset(r) == multiset(Filter(events, (e: EventRow) => Listed(how, e, owner, q)))
  {
    SortByDate(Filter(events, (e: EventRow) => Listed(how, e, owner, q)))
  }

  /** A listed row with its venues attached; `failed` holds the events whose venue select fails. */
  function ListedEvent(st: Store, e: EventRow, failed: set<Id>): Event {
    ReadEvent(e, VenueRowsRead(st, e.id, e.id in failed))
  }

  /** Each selected row with its venues attached (the per-event venue selects, one after another). */
  function AttachVenues(st: Store, rows: seq<EventRow>, failed: set<Id>): (r: seq<Event>)
    ensures |r| == |rows|
    ensures forall i | 0 <= i < |rows| :: r[i] == ListedEvent(st, rows[i], failed)
  {
    seq(|rows|, i requires 0 <= i < |rows| => ListedEvent(st, rows[i], failed))
  }

  function ListBody(st: Store, user: Option<UserId>, q: EventsQuery, how: NameSearch, f: ListFaults): Completion<seq<Event>> {
    match user
    case None => Abrupt(ErrorValue(NotAuthenticated))
    case Some(u) =>
      match f.query
      case Fails(m) => Abrupt(ErrorValue(m))
      case Succeeds => Normal(AttachVenues(st, ListedRows(how, st.events, u, q), f.venueReads))
  }

  /**
   * What a successful listing `d` holds for user `u`: the user's events that
   * pass both filters, in ascending date order, each with its venues, every
   * such event and no other.
   */
  predicate IsListing(st: Store, u: UserId, q: EventsQuery, how: NameSearch, failed: set<Id>, d: seq<Event>) {
    && (forall i | 0 <= i < |d| ::
         d[i].user_id == u && SearchKeeps(how, d[i].name, q.search) && SportKeeps(d[i].sport_type, q.sportType))
    && (forall i, j | 0 <= i < j < |d| :: d[i].date_time <= d[j].date_time)
    && (forall e | e in st.events && Listed(how, e, u, q) :: ListedEvent(st, e, failed) in d)
    && (forall i | 0 <= i < |d| :: exists e | e in st.events :: Listed(how, e, u, q) && d[i] == ListedEvent(st, e, failed))
    && |d| == |Filter(st.events, (e: EventRow) => Listed(how, e, u, q))|
  }

  /**
   * `getEvents`: the caller's events that pass both filters, every one of
   * them, in ascending date order, each with its venues. `how` selects the
   * name comparison: `ILikePattern` is the action as the query runs it,
   * `Substring` the intended "name contains the search" listing.
   */
  function GetEvents(st: Store, user: Option<UserId>, q: EventsQuery, how: NameSearch, f: ListFaults)
    : (r: ActionResult<seq<Event>>)
    ensures user.None? ==> r == Failure(NotAuthenticated)
    ensures user.Some? && f.query.Fails? ==> r == Failure(f.query.message)
    ensures r.Success? <==> user.Some? && f.query.Succeeds?
    ensures r.Success? ==> IsListing(st, user.value, q, how, f.venueReads, r.data)
  {
    match user
    case None => SafeAction(ListBody(st, user, q, how, f))
    case Some(u) =>
      AttachedListFacts(st, u, q, how, f.venueReads);
      SafeAction(ListBody(st, user, q, how, f))
  }

  /** What the listing holds, stated on the attached rows. */
  lemma AttachedListFacts(st: Store, u: UserId, q: EventsQuery, how: NameSearch, failed: set<Id>)
    ensures IsListing(st, u, q, how, failed, AttachVenues(st, ListedRows(how, st.events, u, q), failed))
  {
    var rows := ListedRows(how, st.events, u, q);
    var d := AttachVenues(st, rows, failed);
    ListedRowsMembers(how, st.events, u, q);
    ListedRowsCount(how, st.events, u, q);
    forall i | 0 <= i < |d|
      ensures d[i].user_id == u && SearchKeeps(how, d[i].name, q.search) && SportKeeps(d[i].sport_type, q.sportType)
      ensures exists e | e in st.events :: Listed(how, e, u, q) && d[i] == ListedEvent(st, e, failed)
    {
      assert rows[i] in rows;
    }
    forall e | e in st.events && Listed(how, e, u, q) ensures ListedEvent(st, e, failed) in d {
      var i :| 0 <= i < |rows| && rows[i] == e;
      assert d[i] == ListedEvent(st, e, failed);
    }
  }

  /** The query returns one row per qualifying row: sorting changes the order, not the count. */
  lemma ListedRowsCount(how: NameSearch, events: seq<EventRow>, owner: UserId, q: EventsQuery)
    ensures |ListedRows(how, events, owner, q)| == |Filter(events, (e: EventRow) => Listed(how, e, owner, q))|
  {
    var rows := ListedRows(how, events, owner, q);
    var kept := Filter(events, (e: EventRow) => Listed(how, e, owner, q));
    assert |multiset(rows)| == |rows|;
    assert |multiset(kept)| == |kept|;
  }

  /** The listed rows are exactly the table's rows that pass the filters. */
  lemma ListedRowsMembers(how: NameSearch, events: seq<EventRow>, owner: UserId, q: EventsQuery)
    ensures forall e | e in events && Listed(how, e, owner, q) :: e in ListedRows(how, events, owner, q)
    ensures forall e | e in ListedRows(how, events, owner, q) :: e in events && Listed(how, e, owner, q)
  {
    var keep := (e: EventRow) => Listed(how, e, owner, q);
    var rows := ListedRows(how, events, owner, q);
    forall e | e in events && Listed(how, e, owner, q) ensures e in rows {
      assert e in Filter(events, keep);
      assert e in multiset(Filter(events, keep));
    }
    forall e | e in rows ensures e in events && Listed(how, e, owner, q) {
      assert e in multiset(rows);
      assert e in Filter(events, keep);
    }
  }

  // ---------------------------------------------------------------------
  // getEventById
  // ---------------------------------------------------------------------

  /** The single-event select and the venue select. */
  datatype GetFaults = GetFaults(eventRead: Call, venueRead: Call)

  function GetBody(st: Store, user: Option<UserId>, id: Id, f: GetFaults): Completion<Event> {
    match user
    case None => Abrupt(ErrorValue(NotAuthenticated))
    case Some(u) =>
      match SelectOwnedEvent(st, id, u, f.eventRead)
      case Error(m) => Abrupt(ErrorValue(m))
      case Data(e) => Normal(ReadEvent(e, VenueRowsRead(st, e.id, f.venueRead.Fails?)))
  }

  /**
   * `getEventById`: the event with this id owned by the caller, with its
   * venues. Rows are selected by id and owner together, so another user's
   * event fails exactly like a missing one.
   */
  function GetEventById(st: Store, user: Option<UserId>, id: Id, f: GetFaults): (r: ActionResult<Event>)
    ensures user.None? ==> r == Failure(NotAuthenticated)
    ensures r.Success? ==> user.Some? && exists e | e in st.events ::
      Owns(e, id, user.value) && r.data == ReadEvent(e, VenueRowsRead(st, id, f.venueRead.Fails?))
    ensures Valid(st) && user.Some? && f.eventRead.Succeeds? ==>
      (r.Success? <==> exists e | e in st.events :: Owns(e, id, user.value))
    ensures user.Some? && f.eventRead.Fails? ==> r == Failure(f.eventRead.message)
    ensures Valid(st) && user.Some? && f.eventRead.Succeeds? && r.Failure? ==> r.error == NoRowsMessage
  {
    SafeAction(GetBody(st, user, id, f))
  }

  // ---------------------------------------------------------------------
  // createEvent
  // ---------------------------------------------------------------------

  /** The event insert, the venue insert and the compensating delete. */
  datatype CreateFaults = CreateFaults(eventInsert: Call, venueInsert: Call, rollback: Call)

  function CreateBody(st: Store, user: Option<UserId>, form: EventFormData, f: CreateFaults): Run<Event> {
    match user
    case None => Throw(NotAuthenticated, st)
    case Some(u) =>
      match ValidationError(form)
      case Some(m) => Throw(m, st)
      case None =>
        var w1 := InsertEventRow(st, NewEventRow(form, u), f.eventInsert);
        match w1.answer
        case Error(m) => Throw(m, w1.store)
        case Data(e) =>
          var w2 := InsertVenueRows(w1.store, e.id, NormalizeVenues(form.venues), f.venueInsert);
          match w2.answer
          case Error(m) =>
            // the compensating delete's own error is ignored
            Throw(m, DeleteEventRows(w2.store, e.id, None, f.rollback).store)
          case Data(vs) => Run(Normal(ReturnedEvent(e, vs)), w2.store)
  }

  /**
   * `createEvent`: a validated form becomes one event row owned by the
   * caller plus one venue row per submitted venue; nothing is written before
   * validation passes.
   */
  function CreateEvent(st: Store, user: Option<UserId>, form: EventFormData, f: CreateFaults): (o: Outcome<Event>)
    ensures user.None? ==> o == Outcome(Failure(NotAuthenticated), st)
    ensures user.Some? && !FormIsComplete(form) ==> o == Outcome(Failure(ValidationError(form).value), st)
    ensures o.result.Success? <==>
      user.Some? && FormIsComplete(form) && f.eventInsert.Succeeds? && f.venueInsert.Succeeds?
    ensures user.Some? && FormIsComplete(form) && f.eventInsert.Fails? ==>
      o == Outcome(Failure(f.eventInsert.message), st)
    ensures o.result.Success? ==>
      && o.result.data.id == st.nextId
      && o.result.data.user_id == user.value
      && o.result.data.name == Trim(form.name)
      && o.result.data.sport_type == form.sport_type
      && o.result.data.date_time == form.date_time.value
      && o.result.data.description == TrimOrNull(form.description)
      && |o.result.data.venues| == |form.venues|
      && (forall i | 0 <= i < |form.venues| ::
            o.result.data.venues[i] == Venue(st.nextId + 1 + i, Trim(form.venues[i].name),
                                             TrimOrNull(form.venues[i].address), CapacityOrNull(form.venues[i].capacity)))
      && o.store.events == st.events + [NewEventRow(form, user.value).(id := st.nextId)]
      && o.store.venues == st.venues + NewVenueRows(st.nextId, NormalizeVenues(form.venues), st.nextId + 1)
    ensures Valid(st) ==> Valid(o.store)
  {
    Wrap(CreateBody(st, user, form, f))
  }

  // ---------------------------------------------------------------------
  // updateEvent
  // ---------------------------------------------------------------------

  /** The ownership select, the event update, the venue delete and the venue insert. */
  datatype UpdateFaults = UpdateFaults(ownershipRead: Call, eventUpdate: Call, venueDelete: Call, venueInsert: Call)

  function UpdateBody(st: Store, user: Option<UserId>, id: Id, form: EventFormData, f: UpdateFaults): Run<Event> {
    match user
    case None => Throw(NotAuthenticated, st)
    case Some(u) =>
      match ValidationError(form)
      case Some(m) => Throw(m, st)
      case None =>
        match SelectOwnedEvent(st, id, u, f.ownershipRead)
        // the select's error is ignored: no data reads as "not yours"
        case Error(_) => Throw(NotFoundOrDenied, st)
        case Data(_) => UpdateWrites(st, u, id, form, f)
  }

  /** The writes of an update whose ownership check passed: the row's fields, then its venue set. */
  function UpdateWrites(st: Store, u: UserId, id: Id, form: EventFormData, f: UpdateFaults): (run: Run<Event>)
    requires FormIsComplete(form)
    ensures f.eventUpdate.Fails? ==> run == Throw(f.eventUpdate.message, st)
    ensures f.eventUpdate.Succeeds? ==> run.store.events == ApplyWhereOwned(st.events, id, u, Changes(form))
    ensures run.completion.Normal? ==>
      && f.eventUpdate.Succeeds? && f.venueInsert.Succeeds?
      && run.completion.value.id == id
      && run.completion.value.user_id == u
      && run.completion.value.name == Trim(form.name)
      && run.completion.value.sport_type == form.sport_type
      && run.completion.value.date_time == form.date_time.value
      && run.completion.value.description == TrimOrNull(form.description)
      && |run.completion.value.venues| == |form.venues|
      && forall i | 0 <= i < |form.venues| ::
           run.completion.value.venues[i] == Venue(st.nextId + i, Trim(form.venues[i].name),
                                                   TrimOrNull(form.venues[i].address), CapacityOrNull(form.venues[i].capacity))
    ensures (&& Valid(st) && (exists e | e in st.events :: Owns(e, id, u))
             && f.eventUpdate.Succeeds? && f.venueInsert.Succeeds?)
      ==> run.completion.Normal?
    ensures run.completion.Abrupt? ==> run.completion.thrown.ErrorValue?
  {
    var w1 := UpdateOwnedEventRow(st, id, u, Changes(form), f.eventUpdate);
    match w1.answer
    case Error(m) => Throw(m, w1.store)
    case Data(e) =>
      // the venue delete's error is ignored
      var st2 := DeleteVenueRows(w1.store, id, f.venueDelete).store;
      var w3 := InsertVenueRows(st2, id, NormalizeVenues(form.venues), f.venueInsert);
      match w3.answer
      case Error(m) => Throw(m, w3.store)
      case Data(vs) => Run(Normal(ReturnedEvent(e, vs)), w3.store)
  }

  /**
   * `updateEvent`: after validation and an ownership check, sets the event's
   * fields and replaces its venue set by the submitted one.
   */
  function UpdateEvent(st: Store, user: Option<UserId>, id: Id, form: EventFormData, f: UpdateFaults): (o: Outcome<Event>)
    ensures user.None? ==> o == Outcome(Failure(NotAuthenticated), st)
    ensures user.Some? && !FormIsComplete(form) ==> o == Outcome(Failure(ValidationError(form).value), st)
    ensures (&& Valid(st) && user.Some? && FormIsComplete(form)
             && (f.ownershipRead.Fails? || !exists e | e in st.events :: Owns(e, id, user.value)))
      ==> o == Outcome(Failure(NotFoundOrDenied), st)
    ensures (&& Valid(st) && user.Some? && FormIsComplete(form) && f.ownershipRead.Succeeds?
             && (exists e | e in st.events :: Owns(e, id, user.value)) && f.eventUpdate.Fails?)
      ==> o == Outcome(Failure(f.eventUpdate.message), st)
    ensures o.result.Success? ==>
      && user.Some? && FormIsComplete(form)
      && f.ownershipRead.Succeeds? && f.eventUpdate.Succeeds? && f.venueInsert.Succeeds?
      && exists e | e in st.events :: Owns(e, id, user.value)
    ensures (&& Valid(st) && user.Some? && FormIsComplete(form)
             && (exists e | e in st.events :: Owns(e, id, user.value))
             && f.ownershipRead.Succeeds? && f.eventUpdate.Succeeds? && f.venueInsert.Succeeds?)
      ==> o.result.Success?
    ensures o.result.Success? ==>
      && o.result.data.id == id
      && o.result.data.user_id == user.value
      && o.result.data.name == Trim(form.name)
      && o.result.data.sport_type == form.sport_type
      && o.result.data.date_time == form.date_time.value
      && o.result.data.description == TrimOrNull(form.description)
      && |o.result.data.venues| == |form.venues|
      && forall i | 0 <= i < |form.venues| ::
           o.result.data.venues[i] == Venue(st.nextId + i, Trim(form.venues[i].name),
                                            TrimOrNull(form.venues[i].address), CapacityOrNull(form.venues[i].capacity))
  {
    Wrap(UpdateBody(st, user, id, form, f))
  }

  // ---------------------------------------------------------------------
  // deleteEvent
  // ---------------------------------------------------------------------

  /** The ownership select, the venue delete and the event delete. */
  datatype DeleteFaults = DeleteFaults(ownershipRead: Call, venueDelete: Call, eventDelete: Call)

  function DeleteBody(st: Store, user: Option<UserId>, id: Id, f: DeleteFaults): Run<()> {
    match user
    case None => Throw(NotAuthenticated, st)
    case Some(u) =>
      match SelectOwnedEvent(st, id, u, f.ownershipRead)
      case Error(_) => Throw(NotFoundOrDenied, st)
      case Data(_) =>
        // venues go first; the venue delete's error is ignored
        var st1 := DeleteVenueRows(st, id, f.venueDelete).store;
        var w := DeleteEventRows(st1, id, Some(u), f.eventDelete);
        match w.answer
        case Error(m) => Throw(m, w.store)
        case Data(_) => Run(Normal(()), w.store)
  }

  /**
   * `deleteEvent`: after an ownership check, removes the event's venues and
   * then the event. When the venue delete fails its error is ignored, and the
   * foreign key then refuses the event delete if venues remain.
   */
  function DeleteEvent(st: Store, user: Option<UserId>, id: Id, f: DeleteFaults): (o: Outcome<()>)
    ensures user.None? ==> o == Outcome(Failure(NotAuthenticated), st)
    ensures (&& Valid(st) && user.Some?
             && (f.ownershipRead.Fails? || !exists e | e in st.events :: Owns(e, id, user.value)))
      ==> o == Outcome(Failure(NotFoundOrDenied), st)
    ensures (&& Valid(st) && user.Some? && f.ownershipRead.Succeeds?
             && exists e | e in st.events :: Owns(e, id, user.value))
      ==> o.result == (if f.eventDelete.Fails? then Failure(f.eventDelete.message)
                       else if f.venueDelete.Fails? && VenuesOf(st.venues, id) != [] then Failure(ForeignKeyViolation)
                       else Success(()))
    ensures o.result.Success? ==> forall e | e in o.store.events :: !Owns(e, id, user.value)
    ensures o.result.Success? ==> VenuesOf(o.store.venues, id) == []
    ensures o.result.Failure? ==> o.store.events == st.events
    ensures forall e | e in st.events && e.id != id :: e in o.store.events
    ensures forall e | e in o.store.events :: e in st.events
    ensures forall other | other != id :: VenuesOf(o.store.venues, other) == VenuesOf(st.venues, other)
    ensures Valid(st) ==> Valid(o.store)
  {
    Wrap(DeleteBody(st, user, id, f))
  }
}

=== FILE: like.dfy ===
/**
 * The storage engine's `ILIKE` pattern match, which the event search reaches
 * by wrapping the raw search text in `%…%` and sending it as a PostgREST
 * `ilike` filter. PostgREST reads `*` in such a pattern as `%`. In a `LIKE`
 * pattern `%` matches any run of characters, `_` any single character, and a
 * backslash makes the next character literal; matching is case-insensitive
 * for `ILIKE`.
 */
module Like {
  import opened Text

  /** `s` matches the `LIKE` pattern `p` (backslash is the escape character). */
  predicate LikeMatch(p: string, s: string)
    decreases |p| + |s|
  {
    if |p| == 0 then |s| == 0
    else if p[0] == '%' then LikeMatch(p[1..], s) || (|s| > 0 && LikeMatch(p, s[1..]))
    else if p[0] == '_' then |s| > 0 && LikeMatch(p[1..], s[1..])
    else if p[0] == '\\' && |p| >= 2 then |s| > 0 && s[0] == p[1] && LikeMatch(p[2..], s[1..])
    else |s| > 0 && s[0] == p[0] && LikeMatch(p[1..], s[1..])
  }

  /** PostgREST's reading of a `like`/`ilike` filter value: every `*` stands for `%`. */
  function StarsToPercent(p: string): (r: string)
    ensures |r| == |p|
    ensures forall i | 0 <= i < |p| :: r[i] == (if p[i] == '*' then '%' else p[i])
    ensures '*' !in r
    ensures '*' !in p ==> r == p
  {
    seq(|p|, i requires 0 <= i < |p| => if p[i] == '*' then '%' else p[i])
  }

  /** The pattern the name filter sends for `search`: `%search%`, with `*` read as `%`. */
  function SearchPattern(search: string): string {
    StarsToPercent("%" + search + "%")
  }

  /** Text in which no character has a special meaning inside the filter's pattern. */
  predicate NoWildcards(q: string) {
    forall i | 0 <= i < |q| :: q[i] != '%' && q[i] != '_' && q[i] != '\\' && q[i] != '*'
  }

  /**
   * The name filter as the query applies it: `name ILIKE '%search%'` on the
   * raw search text. For search text with no pattern characters it is exactly
   * the case-insensitive substring test.
   */
  function ILikeContains(name: string, search: string): (b: bool)
    ensures NoWildcards(search) ==> (b <==> ContainsIgnoreCase(name, search))
  {
    PlainSearchPattern(search);
    PercentWrappedIsSubstring(Lower(search), Lower(name));
    LikeMatch(Lower(SearchPattern(search)), Lower(name))
  }

  /** Without pattern characters the sent pattern is the lower-cased search between two `%`. */
  lemma PlainSearchPattern(search: string)
    ensures NoWildcards(search) ==>
      && Lower(SearchPattern(search)) == "%" + (Lower(search) + "%")
      && NoWildcards(Lower(search))
  {
    if NoWildcards(search) {
      var p := "%" + search + "%";
      assert StarsToPercent(p) == p;
    }
  }

  /** A lone `%` matches every string. */
  lemma {:induction false} PercentMatchesAll(s: string)
    ensures LikeMatch("%", s)
  {
    if |s| > 0 {
      PercentMatchesAll(s[1..]);
    }
  }

  /** A literal followed by `%` matches exactly the strings that start with that literal. */
  lemma {:induction false} LiteralThenPercent(q: string, s: string)
    requires NoWildcards(q)
    ensures LikeMatch(q + "%", s) <==> (|q| <= |s| && s[..|q|] == q)
  {
    if |q| == 0 {
      assert q + "%" == "%";
      PercentMatchesAll(s);
    } else {
      assert (q + "%")[1..] == q[1..] + "%";
      assert NoWildcards(q[1..]);
      if |s| > 0 {
        LiteralThenPercent(q[1..], s[1..]);
        if |q| <= |s| && s[..|q|] == q {
          assert s[1..][..|q| - 1] == q[1..];
        }
        if |q| - 1 <= |s| - 1 && s[1..][..|q| - 1] == q[1..] && s[0] == q[0] {
          assert s[..|q|] == [s[0]] + s[1..][..|q| - 1];
        }
      }
    }
  }

  /** A leading `%` lets the rest of the pattern match any suffix. */
  lemma {:induction false} PercentThen(p: string, s: string)
    ensures LikeMatch("%" + p, s) <==> exists k | 0 <= k <= |s| :: LikeMatch(p, s[k..])
  {
    assert ("%" + p)[1..] == p;
    assert s[0..] == s;
    if |s| > 0 {
      PercentThen(p, s[1..]);
      forall k | 1 <= k <= |s| ensures s[k..] == s[1..][k - 1..] {}
      if exists k | 0 <= k <= |s| :: LikeMatch(p, s[k..]) {
        var k :| 0 <= k <= |s| && LikeMatch(p, s[k..]);
        if k > 0 {
          assert LikeMatch(p, s[1..][k - 1..]);
        }
      }
      if exists k | 0 <= k <= |s[1..]| :: LikeMatch(p, s[1..][k..]) {
        var k :| 0 <= k <= |s[1..]| && LikeMatch(p, s[1..][k..]);
        assert LikeMatch(p, s[k + 1..]);
      }
    }
  }

  /** A search with no pattern characters, between two `%`, matches exactly the strings containing it. */
  lemma {:induction false} PercentWrappedIsSubstring(q: string, s: string)
    ensures NoWildcards(q) ==> (LikeMatch("%" + (q + "%"), s) <==> IsSubstring(q, s))
  {
    if NoWildcards(q) {
      PercentThen(q + "%", s);
      if LikeMatch("%" + (q + "%"), s) {
        var k :| 0 <= k <= |s| && LikeMatch(q + "%", s[k..]);
        LiteralThenPercent(q, s[k..]);
        assert s[k..][..|q|] == s[k..k + |q|];
        assert OccursAt(q, s, k);
      }
      if IsSubstring(q, s) {
        var k :| 0 <= k <= |s| - |q| && OccursAt(q, s, k);
        LiteralThenPercent(q, s[k..]);
        assert s[k..][..|q|] == s[k..k + |q|];
      }
    }
  }

  /** The `_` in a search is a wildcard: it selects a name that does not contain `_`. */
  lemma UnderscoreSearchMatchesOtherNames()
    ensures ILikeContains("City Cup", "_")
    ensures !ContainsIgnoreCase("City Cup", "_")
  {
    var s := Lower("City Cup");
    assert "%" + "_" + "%" == "%_%";
    assert SearchPattern("_") == "%_%";
    assert Lower("%_%") == "%_%";
    assert LikeMatch("%", s[1..]) by { PercentMatchesAll(s[1..]); }
    assert LikeMatch("_%", s);
    assert LikeMatch("%_%", s);
    assert !OccursAt("_", s, 0) by { assert s[0] == 'c'; }
    forall k | 0 <= k <= |s| - 1 ensures !OccursAt("_", s, k) {
      assert s[k..k + 1] == [s[k]];
    }
  }

  /**
   * A search of `%` selects every name, although no name need contain `%`;
   * so does `*`, which PostgREST reads as `%`.
   */
  lemma WildcardSearchesMatchEveryName(name: string)
    ensures ILikeContains(name, "%")
    ensures ILikeContains(name, "*")
  {
    assert "%" + "%" + "%" == "%%%";
    assert SearchPattern("%") == "%%%";
    assert "%" + "*" + "%" == "%*%";
    assert SearchPattern("*") == "%%%";
    PercentsMatchAll(name);
  }

  /** The pattern `%%%` matches every lower-cased name. */
  lemma PercentsMatchAll(name: string)
    ensures LikeMatch(Lower("%%%"), Lower(name))
  {
    assert Lower("%%%") == "%%%";
    PercentMatchesAll(Lower(name));
    assert LikeMatch("%%", Lower(name));
  }
}

=== FILE: sorting.dfy ===
/** The `ORDER BY date_time ASC` of the event listing, as a stable insertion sort. */
module Sorting {
  import opened Types

  predicate SortedByDate(s: seq<EventRow>) {
    forall i, j | 0 <= i < j < |s| :: s[i].date_time <= s[j].date_time
  }

  /** Places `x` before the first later-dated row of an already sorted list. */
  function InsertByDate(x: EventRow, s: seq<EventRow>): (r: seq<EventRow>)
    requires SortedByDate(s)
    ensures SortedByDate(r)
    ensures multiset(r) == multiset(s) + multiset{x}
  {
    if |s| == 0 then [x]
    else if x.date_time <= s[0].date_time then
      ConsSorted(x, s);
      [x] + s
    else
      var rest := InsertByDate(x, s[1..]);
      assert s == [s[0]] + s[1..];
      assert forall i | 0 <= i < |rest| :: s[0].date_time <= rest[i].date_time by {
        forall i | 0 <= i < |rest| ensures s[0].date_time <= rest[i].date_time {
          assert rest[i] in multiset(rest);
          if rest[i] != x {
            assert rest[i] in multiset(s[1..]);
            var k :| 0 <= k < |s[1..]| && s[1..][k] == rest[i];
            assert s[k + 1] == rest[i];
          }
        }
      }
      ConsSorted(s[0], rest);
      [s[0]] + rest
  }

  /** A sorted list stays sorted under a head no later than any of its rows. */
  lemma ConsSorted(h: EventRow, s: seq<EventRow>)
    requires SortedByDate(s)
    requires forall i | 0 <= i < |s| :: h.date_time <= s[i].date_time
    ensures SortedByDate([h] + s)
  {
    forall i, j | 0 <= i < j < |[h] + s| ensures ([h] + s)[i].date_time <= ([h] + s)[j].date_time {
      if i > 0 {
        assert ([h] + s)[i] == s[i - 1];
      }
    }
  }

  /** The rows of `s` ordered by ascending `date_time`: a sorted permutation. */
  function SortByDate(s: seq<EventRow>): (r: seq<EventRow>)
    ensures SortedByDate(r)
    ensures multiset(r) == multiset(s)
  {
    if |s| == 0 then []
    else
      assert s == [s[0]] + s[1..];
      InsertByDate(s[0], SortByDate(s[1..]))
  }
}

=== FILE: storage.dfy ===
/**
 * The two tables the actions read and write, and the storage calls they issue.
 * Every call carries a `Call` flag saying whether it succeeds or fails with a
 * message; the network, the client library and the server's row policies are
 * not modelled beyond that.
 */
module Storage {
  import opened Wrappers
  import opened Types
  import opened Collections

  /** Whether one storage call succeeds or reports an error message. */
  datatype Call = Succeeds | Fails(message: string)

  /** What a call that returns rows hands back: the rows, or its error. */
  datatype Answer<+T> = Data(value: T) | Error(message: string)

  /**
   * The `events` and `venues` tables in insertion order, and the next
   * identifier the store will hand out (row ids are generated by the store).
   */
  datatype Store = Store(events: seq<EventRow>, venues: seq<VenueRow>, nextId: Id)

  /** A store-side call that changes the tables and may report an error. */
  datatype Write<+T> = Write(answer: Answer<T>, store: Store)

  /**
   * The error the client reports when `.single()` finds zero rows (or more
   * than one) instead of exactly one.
   */
  const NoRowsMessage: string := "JSON object requested, multiple (or no) rows returned"

  function EventKey(e: EventRow): Id { e.id }

  function VenueKey(v: VenueRow): Id { v.id }

  /**
   * Row ids are unique within each table, and every id in the store, venue
   * back-references included, was handed out before `nextId`.
   */
  predicate Valid(st: Store) {
    && Distinct(st.events, EventKey)
    && Distinct(st.venues, VenueKey)
    && (forall i | 0 <= i < |st.events| :: st.events[i].id < st.nextId)
    && (forall i | 0 <= i < |st.venues| :: st.venues[i].id < st.nextId && st.venues[i].event_id < st.nextId)
  }

  predicate Owns(e: EventRow, id: Id, owner: UserId) {
    e.id == id && e.user_id == owner
  }

  /** `select * from events where id = $id and user_id = $owner`. */
  function OwnedRows(events: seq<EventRow>, id: Id, owner: UserId): (r: seq<EventRow>)
    ensures forall e | e in r :: e in events && Owns(e, id, owner)
    ensures forall e | e in events && Owns(e, id, owner) :: e in r
  {
    Filter(events, (e: EventRow) => Owns(e, id, owner))
  }

  /** `select * from venues where event_id = $id`. */
  function VenuesOf(venues: seq<VenueRow>, id: Id): (r: seq<VenueRow>)
    ensures forall v | v in r :: v in venues && v.event_id == id
    ensures forall v | v in venues && v.event_id == id :: v in r
  {
    Filter(venues, (v: VenueRow) => v.event_id == id)
  }

  /** A table in which no venue references `id` yields no venues for it. */
  lemma {:induction false} NoVenuesOf(venues: seq<VenueRow>, id: Id)
    requires forall v | v in venues :: v.event_id != id
    ensures VenuesOf(venues, id) == []
  {
    if |venues| > 0 {
      NoVenuesOf(venues[1..], id);
    }
  }

  /** Under `Valid` (the model's unique ids), two event rows with the same id are the same row. */
  lemma OneRowPerId(st: Store, x: EventRow, y: EventRow)
    requires x in st.events && y in st.events
    ensures Valid(st) && x.id == y.id ==> x == y
  {
    var i :| 0 <= i < |st.events| && st.events[i] == x;
    var j :| 0 <= j < |st.events| && st.events[j] == y;
    assert Valid(st) && i != j ==> EventKey(st.events[i]) != EventKey(st.events[j]);
  }

  /** In a valid store an owner's event id selects at most one row, and one exactly when it exists. */
  lemma OwnedRowsOfValid(st: Store, id: Id, owner: UserId)
    ensures Valid(st) ==> |OwnedRows(st.events, id, owner)| <= 1
    ensures Valid(st) ==> (|OwnedRows(st.events, id, owner)| == 1 <==> exists e | e in st.events :: Owns(e, id, owner))
  {
    var r := OwnedRows(st.events, id, owner);
    FilterKeepsDistinct(st.events, (e: EventRow) => Owns(e, id, owner), EventKey);
    assert |r| > 1 ==> EventKey(r[0]) == EventKey(r[1]);
    if exists e | e in st.events :: Owns(e, id, owner) {
      var e :| e in st.events && Owns(e, id, owner);
      assert e in r;
    }
    if |r| == 1 {
      assert r[0] in r;
    }
  }

  /** `select … where id = $id and user_id = $owner` followed by `.single()`. */
  function SelectOwnedEvent(st: Store, id: Id, owner: UserId, call: Call): (r: Answer<EventRow>)
    ensures Valid(st) ==> (r.Data? <==> call.Succeeds? && exists e | e in st.events :: Owns(e, id, owner))
    ensures r.Data? ==> r.value in st.events && Owns(r.value, id, owner)
    ensures call.Fails? ==> r == Error(call.message)
    ensures call.Succeeds? && r.Error? ==> r.message == NoRowsMessage
  {
    match call
    case Fails(m) => Error(m)
    case Succeeds =>
      var rows := OwnedRows(st.events, id, owner);
      OwnedRowsOfValid(st, id, owner);
      if |rows| == 1 then Data(rows[0]) else Error(NoRowsMessage)
  }

  /**
   * `insert into events … returning *` followed by `.single()`: the row gets
   * the next id; a failed insert leaves the table as it was.
   */
  function InsertEventRow(st: Store, row: EventRow, call: Call): (w: Write<EventRow>)
    ensures call.Fails? ==> w == Write(Error(call.message), st)
    ensures call.Succeeds? ==> w.answer == Data(row.(id := st.nextId))
    ensures call.Succeeds? ==> w.store.events == st.events + [row.(id := st.nextId)]
    ensures w.store.venues == st.venues
    ensures Valid(st) ==> Valid(w.store)
  {
    match call
    case Fails(m) => Write(Error(m), st)
    case Succeeds =>
      var inserted := row.(id := st.nextId);
      var st' := st.(events := st.events + [inserted], nextId := st.nextId + 1);
      assert Valid(st) ==> Distinct(st'.events, EventKey);
      Write(Data(inserted), st')
  }

  /** The rows a batch insert of `inputs` for event `eventId` creates, with ids from `firstId` on. */
  function NewVenueRows(eventId: Id, inputs: seq<VenueInput>, firstId: Id): (r: seq<VenueRow>)
    ensures |r| == |inputs|
    ensures forall i | 0 <= i < |r| ::
      r[i] == VenueRow(firstId + i, eventId, inputs[i].name, inputs[i].address, inputs[i].capacity)
  {
    seq(|inputs|, i requires 0 <= i < |inputs| =>
      VenueRow(firstId + i, eventId, inputs[i].name, inputs[i].address, inputs[i].capacity))
  }

  /**
   * `insert into venues values … returning *`: one statement, so it inserts
   * every row or, on failure, none.
   */
  function InsertVenueRows(st: Store, eventId: Id, inputs: seq<VenueInput>, call: Call): (w: Write<seq<VenueRow>>)
    ensures call.Fails? ==> w == Write(Error(call.message), st)
    ensures call.Succeeds? ==> w.answer == Data(NewVenueRows(eventId, inputs, st.nextId))
    ensures call.Succeeds? ==> w.store.venues == st.venues + NewVenueRows(eventId, inputs, st.nextId)
    ensures w.store.events == st.events
    ensures Valid(st) && eventId < st.nextId ==> Valid(w.store)
  {
    match call
    case Fails(m) => Write(Error(m), st)
    case Succeeds =>
      var rows := NewVenueRows(eventId, inputs, st.nextId);
      var st' := st.(venues := st.venues + rows, nextId := st.nextId + |inputs|);
      assert Valid(st) ==> Distinct(st'.venues, VenueKey);
      Write(Data(rows), st')
  }

  /** The rows `delete from events where id = $id [and user_id = $owner]` removes. */
  predicate DeleteMatches(e: EventRow, id: Id, owner: Option<UserId>) {
    e.id == id && (owner.None? || e.user_id == owner.value)
  }

  /**
   * The error the store reports when a delete would remove an event that a
   * venue row still references (`venues.event_id` is a foreign key to
   * `events.id`, with the default `NO ACTION` on delete).
   */
  const ForeignKeyViolation: string :=
    "update or delete on table \"events\" violates foreign key constraint \"venues_event_id_fkey\" on table \"venues\""

  /** The delete would remove a row that some venue still references. */
  predicate Referenced(st: Store, id: Id, owner: Option<UserId>) {
    (exists e | e in st.events :: DeleteMatches(e, id, owner)) && VenuesOf(st.venues, id) != []
  }

  /**
   * `delete from events where id = $id` (and `user_id = $owner` when an
   * owner is given). The foreign key refuses a delete that would leave venue
   * rows referencing a removed event; a failed or refused delete removes nothing.
   */
  function DeleteEventRows(st: Store, id: Id, owner: Option<UserId>, call: Call): (w: Write<()>)
    ensures call.Fails? ==> w == Write(Error(call.message), st)
    ensures call.Succeeds? && Referenced(st, id, owner) ==> w == Write(Error(ForeignKeyViolation), st)
    ensures w.answer.Data? <==> call.Succeeds? && !Referenced(st, id, owner)
    ensures w.answer.Data? ==> w.answer == Data(())
    ensures w.answer.Data? ==> forall e | e in w.store.events :: !DeleteMatches(e, id, owner)
    ensures w.answer.Data? && (exists e | e in st.events :: DeleteMatches(e, id, owner)) ==>
      VenuesOf(w.store.venues, id) == []
    ensures forall e | e in st.events && e.id != id :: e in w.store.events
    ensures forall e | e in w.store.events :: e in st.events
    ensures w.store.venues == st.venues && w.store.nextId == st.nextId
    ensures Valid(st) ==> Valid(w.store)
  {
    match call
    case Fails(m) => Write(Error(m), st)
    case Succeeds =>
      if Referenced(st, id, owner) then Write(Error(ForeignKeyViolation), st)
      else
        var keep := (e: EventRow) => !DeleteMatches(e, id, owner);
        FilterKeepsDistinct(st.events, keep, EventKey);
        Write(Data(()), st.(events := Filter(st.events, keep)))
  }

  /** Deleting one event's venues leaves another event's venues as they were. */
  lemma {:induction false} VenuesOfAfterDelete(vs: seq<VenueRow>, id: Id, other: Id)
    requires other != id
    ensures VenuesOf(Filter(vs, (v: VenueRow) => v.event_id != id), other) == VenuesOf(vs, other)
  {
    if |vs| > 0 {
      VenuesOfAfterDelete(vs[1..], id, other);
    }
  }

  /** Deleting one event's venues leaves every other event's venues as they were. */
  lemma OtherVenuesAfterDelete(vs: seq<VenueRow>, id: Id)
    ensures forall other | other != id ::
      VenuesOf(Filter(vs, (v: VenueRow) => v.event_id != id), other) == VenuesOf(vs, other)
  {
    forall other | other != id
      ensures VenuesOf(Filter(vs, (v: VenueRow) => v.event_id != id), other) == VenuesOf(vs, other)
    {
      VenuesOfAfterDelete(vs, id, other);
    }
  }

  /** `delete from venues where event_id = $id`; a failed delete removes nothing. */
  function DeleteVenueRows(st: Store, id: Id, call: Call): (w: Write<()>)
    ensures call.Fails? ==> w == Write(Error(call.message), st)
    ensures call.Succeeds? ==> w.answer == Data(()) && VenuesOf(w.store.venues, id) == []
    ensures forall other | other != id :: VenuesOf(w.store.venues, other) == VenuesOf(st.venues, other)
    ensures forall v | v in st.venues && v.event_id != id :: v in w.store.venues
    ensures forall v | v in w.store.venues :: v in st.venues
    ensures w.store.events == st.events && w.store.nextId == st.nextId
    ensures Valid(st) ==> Valid(w.store)
  {
    match call
    case Fails(m) => Write(Error(m), st)
    case Succeeds =>
      var keep := (v: VenueRow) => v.event_id != id;
      var venues := Filter(st.venues, keep);
      FilterKeepsDistinct(st.venues, keep, VenueKey);
      NoVenuesOf(venues, id);
      OtherVenuesAfterDelete(st.venues, id);
      Write(Data(()), st.(venues := venues))
  }

  /** The mutable columns an update sets. */
  datatype EventChanges = EventChanges(name: string, sport_type: string, date_time: DateTime, description: Option<string>)

  function Apply(e: EventRow, c: EventChanges): (r: EventRow)
    ensures r.id == e.id && r.user_id == e.user_id
  {
    e.(name := c.name, sport_type := c.sport_type, date_time := c.date_time, description := c.description)
  }

  /** The events table after `set …` on the rows an owner's id selects. */
  function ApplyWhereOwned(events: seq<EventRow>, id: Id, owner: UserId, c: EventChanges): (r: seq<EventRow>)
    ensures |r| == |events|
    ensures forall i | 0 <= i < |events| ::
      r[i] == if Owns(events[i], id, owner) then Apply(events[i], c) else events[i]
    ensures forall i | 0 <= i < |events| :: r[i].id == events[i].id && r[i].user_id == events[i].user_id
  {
    seq(|events|, i requires 0 <= i < |events| =>
      if Owns(events[i], id, owner) then Apply(events[i], c) else events[i])
  }

  /** Updating columns other than the id and owner keeps the store valid. */
  lemma ApplyWhereOwnedValid(st: Store, id: Id, owner: UserId, c: EventChanges)
    ensures Valid(st) ==> Valid(st.(events := ApplyWhereOwned(st.events, id, owner, c)))
  {
    var events := ApplyWhereOwned(st.events, id, owner, c);
    assert forall i | 0 <= i < |events| :: EventKey(events[i]) == EventKey(st.events[i]);
  }

  /** Updating columns other than the id and owner keeps the owned row findable. */
  lemma ApplyWhereOwnedKeepsOwned(st: Store, id: Id, owner: UserId, c: EventChanges)
    ensures (exists e | e in st.events :: Owns(e, id, owner))
        <==> (exists e | e in ApplyWhereOwned(st.events, id, owner, c) :: Owns(e, id, owner))
  {
    var events := ApplyWhereOwned(st.events, id, owner, c);
    if exists e | e in st.events :: Owns(e, id, owner) {
      var e :| e in st.events && Owns(e, id, owner);
      var i :| 0 <= i < |st.events| && st.events[i] == e;
      assert Owns(events[i], id, owner);
    }
    if exists e | e in events :: Owns(e, id, owner) {
      var e :| e in events && Owns(e, id, owner);
      var i :| 0 <= i < |events| && events[i] == e;
      assert Owns(st.events[i], id, owner);
    }
  }

  /** Every row the owner's id selects after the update carries the changed columns. */
  lemma OwnedRowsTakeChanges(events: seq<EventRow>, id: Id, owner: UserId, c: EventChanges)
    ensures forall e | e in ApplyWhereOwned(events, id, owner, c) && Owns(e, id, owner) ::
      e.name == c.name && e.sport_type == c.sport_type && e.date_time == c.date_time && e.description == c.description
  {
    var r := ApplyWhereOwned(events, id, owner, c);
    forall e | e in r && Owns(e, id, owner)
      ensures e.name == c.name && e.sport_type == c.sport_type && e.date_time == c.date_time && e.description == c.description
    {
      var i :| 0 <= i < |r| && r[i] == e;
      assert Owns(events[i], id, owner);
    }
  }

  /**
   * `update events set … where id = $id and user_id = $owner returning *`
   * followed by `.single()`. The owner column is never among the changes.
   */
  function UpdateOwnedEventRow(st: Store, id: Id, owner: UserId, c: EventChanges, call: Call): (w: Write<EventRow>)
    ensures call.Fails? ==> w == Write(Error(call.message), st)
    ensures call.Succeeds? ==> w.store == st.(events := ApplyWhereOwned(st.events, id, owner, c))
    ensures Valid(st) ==> (w.answer.Data? <==> call.Succeeds? && exists e | e in st.events :: Owns(e, id, owner))
    ensures w.answer.Data? ==> w.answer.value in w.store.events && Owns(w.answer.value, id, owner)
    ensures w.answer.Data? ==>
      && w.answer.value.name == c.name && w.answer.value.sport_type == c.sport_type
      && w.answer.value.date_time == c.date_time && w.answer.value.description == c.description
    ensures w.store.venues == st.venues && w.store.nextId == st.nextId
    ensures Valid(st) ==> Valid(w.store)
  {
    match call
    case Fails(m) => Write(Error(m), st)
    case Succeeds =>
      var st' := st.(events := ApplyWhereOwned(st.events, id, owner, c));
      ApplyWhereOwnedValid(st, id, owner, c);
      ApplyWhereOwnedKeepsOwned(st, id, owner, c);
      OwnedRowsTakeChanges(st.events, id, owner, c);
      Write(SelectOwnedEvent(st', id, owner, Succeeds), st')
  }
}

=== FILE: text.dfy ===
/**
 * String helpers the orchestrator relies on: JavaScript's `String.prototype.trim`
 * and the case-insensitive substring test the event search is meant to perform.
 */
module Text {

  /**
   * The characters `trim` removes: ECMAScript WhiteSpace (tab, vertical tab,
   * form feed, space, no-break space, byte-order mark and the Unicode space
   * separators) and LineTerminator (line feed, carriage return, line and
   * paragraph separators).
   */
  predicate IsWhitespace(c: char) {
    || c == '\t' || c == '\n' || c == '\U{000B}' || c == '\U{000C}' || c == '\r'
    || c == ' ' || c == '\U{00A0}' || c == '\U{1680}'
    || ('\U{2000}' <= c <= '\U{200A}')
    || c == '\U{2028}' || c == '\U{2029}' || c == '\U{202F}' || c == '\U{205F}'
    || c == '\U{3000}' || c == '\U{FEFF}'
  }

  predicate AllWhitespace(s: string) {
    forall i | 0 <= i < |s| :: IsWhitespace(s[i])
  }

  /** The index of the first non-blank at or after `from`, or `|s|` when there is none. */
  function SkipBlanks(s: string, from: nat): (n: nat)
    requires from <= |s|
    ensures from <= n <= |s|
    ensures forall k | from <= k < n :: IsWhitespace(s[k])
    ensures n == |s| || !IsWhitespace(s[n])
    decreases |s| - from
  {
    if from < |s| && IsWhitespace(s[from]) then SkipBlanks(s, from + 1) else from
  }

  /** Walking back from `upto`, the index just past the last non-blank above `floor`. */
  function SkipBlanksBack(s: string, upto: nat, floor: nat): (m: nat)
    requires floor <= upto <= |s|
    ensures floor <= m <= upto
    ensures forall k | m <= k < upto :: IsWhitespace(s[k])
    ensures m == floor || !IsWhitespace(s[m - 1])
  {
    if upto > floor && IsWhitespace(s[upto - 1]) then SkipBlanksBack(s, upto - 1, floor) else upto
  }

  /**
   * `s[i..j]` is `s` with its surrounding whitespace removed: only whitespace
   * lies outside the slice and none sits at either of its ends.
   */
  predicate TrimBounds(s: string, i: int, j: int) {
    && 0 <= i <= j <= |s|
    && (forall k | 0 <= k < i :: IsWhitespace(s[k]))
    && (forall k | j <= k < |s| :: IsWhitespace(s[k]))
    && (i == j || (!IsWhitespace(s[i]) && !IsWhitespace(s[j - 1])))
  }

  ghost predicate IsTrimOf(r: string, s: string) {
    exists i, j | TrimBounds(s, i, j) :: r == s[i..j]
  }

  /** JavaScript's `trim`: leading, then trailing whitespace removed. */
  function Trim(s: string): (r: string)
    ensures IsTrimOf(r, s)
  {
    var i := SkipBlanks(s, 0);
    var j := SkipBlanksBack(s, |s|, i);
    assert i == j ==> forall k | 0 <= k < |s| :: IsWhitespace(s[k]);
    assert TrimBounds(s, i, j);
    s[i..j]
  }

  /** Two trimmed slices of the same string are the same slice. */
  lemma TrimBoundsUnique(s: string, i: int, j: int, i': int, j': int)
    requires TrimBounds(s, i, j) && TrimBounds(s, i', j')
    ensures s[i..j] == s[i'..j']
  {
  }

  /** The trimmed form of a string is unique, so `Trim` is exactly it. */
  lemma TrimIsUnique(r: string, s: string)
    ensures IsTrimOf(r, s) <==> r == Trim(s)
  {
    if IsTrimOf(r, s) {
      var i, j :| TrimBounds(s, i, j) && r == s[i..j];
      var i', j' :| TrimBounds(s, i', j') && Trim(s) == s[i'..j'];
      TrimBoundsUnique(s, i, j, i', j');
    }
  }

  /** A string trims to the empty string exactly when it is all whitespace. */
  lemma TrimEmptyIffBlank(s: string)
    ensures Trim(s) == [] <==> AllWhitespace(s)
  {
    assert IsTrimOf(Trim(s), s);
    var i, j :| TrimBounds(s, i, j) && Trim(s) == s[i..j];
    if i != j {
      assert Trim(s)[0] == s[i];
    }
  }

  /** Trimming twice is trimming once. */
  lemma TrimIdempotent(s: string)
    ensures Trim(Trim(s)) == Trim(s)
  {
    var t := Trim(s);
    assert IsTrimOf(t, s);
    var i, j :| TrimBounds(s, i, j) && t == s[i..j];
    assert TrimBounds(t, 0, |t|);
    assert t == t[0..|t|];
    TrimIsUnique(t, t);
  }

  /** ASCII case folding (what the storage engine's case-insensitive match applies to letters). */
  function LowerChar(c: char): (d: char)
    ensures 'A' <= c <= 'Z' ==> d as int == c as int + 32
    ensures !('A' <= c <= 'Z') ==> d == c
  {
    if 'A' <= c <= 'Z' then (c as int + 32) as char else c
  }

  function Lower(s: string): (r: string)
    ensures |r| == |s|
    ensures forall i | 0 <= i < |s| :: r[i] == LowerChar(s[i])
  {
    seq(|s|, i requires 0 <= i < |s| => LowerChar(s[i]))
  }

  /** `p` occurs in `s` as a contiguous run of characters. */
  predicate IsSubstring(p: string, s: string) {
    exists k | 0 <= k <= |s| - |p| :: OccursAt(p, s, k)
  }

  predicate OccursAt(p: string, s: string, k: int) {
    0 <= k && k + |p| <= |s| && s[k..k + |p|] == p
  }

  /** The search the event list is meant to perform: `search` occurs in `name`, ignoring case. */
  predicate ContainsIgnoreCase(name: string, search: string) {
    IsSubstring(Lower(search), Lower(name))
  }
}

=== FILE: types.dfy ===
/**
 * The sport enumeration and the entity shapes: what callers see (`Venue`,
 * `Event`), what forms submit (`VenueInput`, `EventFormData`) and what the two
 * tables store (`EventRow`, `VenueRow`).
 */
module Types {
  import opened Wrappers

  /** Store-generated identifier of an event or venue row. */
  type Id = nat

  /** Identifier of an authenticated user (the owner of rows). */
  type UserId = string

  /**
   * An event's start time. Only its order matters here (the list is sorted by
   * it), so it is an abstract integer key rather than an ISO-8601 string.
   */
  type DateTime = int

  datatype SportType =
    | Soccer | Basketball | Tennis | Baseball | Football | Hockey | Golf | Swimming
    | Volleyball | Rugby | Cricket | Boxing | MMA | Running | Cycling | Other

  /** The string literal each member of the union stands for. */
  function SportName(s: SportType): string {
    match s
    case Soccer => "Soccer"
    case Basketball => "Basketball"
    case Tennis => "Tennis"
    case Baseball => "Baseball"
    case Football => "Football"
    case Hockey => "Hockey"
    case Golf => "Golf"
    case Swimming => "Swimming"
    case Volleyball => "Volleyball"
    case Rugby => "Rugby"
    case Cricket => "Cricket"
    case Boxing => "Boxing"
    case MMA => "MMA"
    case Running => "Running"
    case Cycling => "Cycling"
    case Other => "Other"
  }

  /** The list the forms and filters offer, in display order. */
  const SportTypes: seq<SportType> :=
    [Soccer, Basketball, Tennis, Baseball, Football, Hockey, Golf, Swimming,
     Volleyball, Rugby, Cricket, Boxing, MMA, Running, Cycling, Other]

  /** The string a filter uses to mean "no sport filter". */
  const AllSports: string := "all"

  /**
   * The list and the union are the same set: sixteen entries, each sport
   * exactly once.
   */
  lemma SportTypesIsTheUnion()
    ensures |SportTypes| == 16
    ensures forall s: SportType :: s in SportTypes
    ensures forall i, j | 0 <= i < j < |SportTypes| :: SportTypes[i] != SportTypes[j]
  {
    forall s: SportType ensures s in SportTypes {
      assert SportTypes[SportIndex(s)] == s;
    }
  }

  /** Distinct sports have distinct names, none empty and none equal to "all". */
  lemma SportNamesDistinct(a: SportType, b: SportType)
    ensures SportName(a) == SportName(b) <==> a == b
    ensures SportName(a) != "" && SportName(a) != AllSports
  {
  }

  /** The position of a sport in the display list. */
  function SportIndex(s: SportType): (i: nat)
    ensures i < |SportTypes| && SportTypes[i] == s
  {
    match s
    case Soccer => 0
    case Basketball => 1
    case Tennis => 2
    case Baseball => 3
    case Football => 4
    case Hockey => 5
    case Golf => 6
    case Swimming => 7
    case Volleyball => 8
    case Rugby => 9
    case Cricket => 10
    case Boxing => 11
    case MMA => 12
    case Running => 13
    case Cycling => 14
    case Other => 15
  }

  /** A venue as callers see it; absent fields are `None`. */
  datatype Venue = Venue(id: Id, name: string, address: Option<string>, capacity: Option<int>)

  /**
   * An event as callers see it: it always carries its owner and its venue
   * list; the description is optional. The creation and update timestamps
   * are not modelled.
   */
  datatype Event = Event(
    id: Id,
    name: string,
    sport_type: string,
    date_time: DateTime,
    description: Option<string>,
    venues: seq<Venue>,
    user_id: UserId)

  /** A venue as a form submits it: a `Venue` without an id (ids come from the store). */
  datatype VenueInput = VenueInput(name: string, address: Option<string>, capacity: Option<int>)

  /**
   * What the event form submits. `sport_type` is any string at run time: the
   * server only tests it for emptiness. `date_time` is `None` when missing or
   * empty. A missing venue list reads as the empty list.
   */
  datatype EventFormData = EventFormData(
    name: string,
    sport_type: string,
    date_time: Option<DateTime>,
    description: Option<string>,
    venues: seq<VenueInput>)

  /** A row of the `events` table; `description` is nullable, the rest are not. */
  datatype EventRow = EventRow(
    id: Id,
    name: string,
    sport_type: string,
    date_time: DateTime,
    description: Option<string>,
    user_id: UserId)

  /** A row of the `venues` table; `address` and `capacity` are nullable. */
  datatype VenueRow = VenueRow(
    id: Id,
    event_id: Id,
    name: string,
    address: Option<string>,
    capacity: Option<int>)
}

=== FILE: wrappers.dfy ===
/** Optional values: the model's reading of TypeScript's `undefined` / SQL `NULL`. */
module Wrappers {

  datatype Option<+T> = None | Some(value: T)
}
